=== FILE: README.md ===
# pharmakinetix in Dafny

A model of the command-to-curve logic of two scripts.

- `pk_graph_generator.py` does the following:
  - parses commands such as `show me metformin at 500 mg` with a regular expression;
  - looks the drug up in a static table, after lower-casing and stripping the name;
  - computes a one-compartment concentration curve over 24 hours;
  - builds a Plotly figure titled `Pharmacokinetics of <drug> (Dose: <dose> mg)`.
- `pk_graph_tool_ai.py` does the following:
  - asks a language service to turn the command into a JSON record;
  - recovers a flat `{...}` object from a noisy reply;
  - falls back to a hand-written token parser;
  - takes the parameter triple (Vd, Ka, Ke) from a drug-information service, with per-field defaults;
  - otherwise takes the triple from a second static table or a generic default;
  - bumps `Ka` by 0.001 when it equals `Ke`, then draws the same figure.

Modules (one file each):

- `Wrappers`: `Option` and `Result`.
- `Text`: the ASCII behaviour of the Python string operations used:
  - `lower`, `strip`, `split`, `" ".join`, `list.index`;
  - slicing, `int`/`str` on naturals, `replace(pat, "")`.
- `CommandGrammar`: `parse_user_input`.
  - The match is specified relationally: a keyword, a name over `[a-z0-9 ]`, ` at `, digits, optional whitespace, then `mg`.
  - A hand-written matcher is proved to pick the leftmost start and then the longest name, as Python's backtracking engine does.
- `TokenCommand`: the inline fallback parser of the tool's command loop.
- `ResponseExtract`: the reply handling of `parse_input_with_grok`.
  - It covers the blank check, the whole-text decode and the `\{[^}]*\}` search.
  - JSON decoding is an arbitrary partial function passed in.
- `Parameters`: both tables, name normalisation, the lookup-response defaults and the `Ka == Ke` guard.
- `Chart`: the time grid, the concentration formula and the figure record.
  - `numpy.exp` is a parameter.
  - The lemmas that need it assume only `exp(0) = 1` and strict monotonicity.
- `Session`: one turn of each file's `input()` loop.
  - The loop's external answers are parameters: the language service's reply, the lookup service's response and `exp`.

Behaviour of the code worth knowing before reading the contracts:

- The dose unit is never converted. The grammar requires the literal letters `mg` after the digits and ignores what follows them. The token parser reads only the token after `at`, with every `mg` in it removed, and always reports the unit `mg`. The `unit` field of a service record is never read.
- A lookup response with zero or negative values is used as it is.
- A missing lookup field takes its default. It does not cause the fallback.
- Only a zero volume stops the tool's formula, as a ZeroDivisionError (`Chart.ToolFigure`).
- The tool's fallback table is keyed by `drug_name.lower()` without stripping.
- The generator rejects unknown drugs with an error instead of using a default triple.

## Model

| member | source | states |
|---|---|---|
| Text.Strip | pk_graph_generator.py:104 | the result is the input with its leading and trailing whitespace removed: a slice flanked by whitespace only, with no whitespace at either end |
| Text.StripPadded | pk_graph_generator.py:28-30 | whitespace added around a name never changes what `strip` returns |
| Text.StripIdempotent | pk_graph_generator.py:28-30 | stripping twice is stripping once |
| Text.StripLowerCommute | pk_graph_generator.py:28-30 | lower-casing and stripping commute |
| Text.StripEmptyIffBlank | pk_graph_tool_ai.py:40 | `s.strip() == ""` exactly when every character of `s` is whitespace |
| Text.Lower | pk_graph_generator.py:101 | `str.lower()` keeps the length, leaves no upper-case letter, and changes only `A`-`Z`, each to its lower-case letter |
| Text.LowerIdempotent | pk_graph_generator.py:101 | lower-casing twice is lower-casing once |
| Text.Split | pk_graph_tool_ai.py:152 | every token of `split()` is non-empty and contains no whitespace; there are no tokens exactly when the line is all whitespace; a line without upper-case letters gives tokens without them |
| Text.SplitSpaceThen | pk_graph_tool_ai.py:152 | whitespace in front of a line, however long and of whatever kind, adds no token; with `Text.SplitWordThen` this fixes `split()` on every line |
| Text.SplitWordThen | pk_graph_tool_ai.py:152 | a word followed by whitespace or the end of the line is the first token, and splitting continues after it |
| Text.JoinSpace | pk_graph_tool_ai.py:156 | `" ".join` of words is empty only for no words, has no whitespace at either end, is as long as the words plus one blank between each pair, and holds no whitespace but `' '`; with `Text.SplitJoin` this fixes the joined string |
| Text.SplitJoin | pk_graph_tool_ai.py:156 | splitting the single-space join of whitespace-free tokens gives the tokens back |
| Text.IndexOf | pk_graph_tool_ai.py:154-155 | `list.index` returns the first position holding the word |
| Text.NatToString | pk_graph_generator.py:62 | `str(n)` is a non-empty digit string without a leading zero |
| Text.DecimalOfNatToString | pk_graph_generator.py:105 | `int(str(n)) == n` |
| Text.RemoveAll | pk_graph_tool_ai.py:157 | `replace(pat, "")` never lengthens the string |
| Text.RemoveAllAbsent | pk_graph_tool_ai.py:157 | removing a pattern that occurs at no position leaves the string unchanged |
| Text.RemoveAllTrailing | pk_graph_tool_ai.py:157 | removing `mg` from digits followed by `mg` leaves the digits |
| Text.RemoveAllKeeps | pk_graph_tool_ai.py:157 | a character that does not occur in the pattern survives the removal |
| Text.RemoveAllFrom | pk_graph_tool_ai.py:157 | the removal only deletes: every character it returns was in the input |
| Text.RemoveAllFirst | pk_graph_tool_ai.py:157 | the left-to-right scan of `replace`: the part before the first occurrence is kept, the occurrence is dropped, and removal carries on after it |
| Text.StripKeeps | pk_graph_tool_ai.py:157 | `strip()` keeps every non-whitespace character |
| Text.StripFrom | pk_graph_tool_ai.py:157 | `strip()` adds no character |
| Text.DecimalValue | pk_graph_generator.py:105 | `int()` of a digit string is 0 exactly when every digit is `0` |
| Text.DecimalLeadingZero | pk_graph_generator.py:105 | a leading zero does not change `int()` of a digit string, so `0500` reads as 500 |
| CommandGrammar.DoseDigits | pk_graph_generator.py:100 | the tail ` at <digits><spaces>mg` matches after a name exactly when this yields digits, and those are the only digits any match of the tail can capture |
| CommandGrammar.LongestAt | pk_graph_generator.py:100 | at a given start the matcher returns the longest name among all matches there, and none exactly when nothing matches there |
| CommandGrammar.Search | pk_graph_generator.py:101 | `re.search` returns the leftmost start and, at it, the greedy name; none exactly when no substring matches |
| CommandGrammar.ParseUserInput | pk_graph_generator.py:94-115 | no result exactly when no substring of the lower-cased input matches; otherwise the stripped name and the integer dose of the chosen match |
| CommandGrammar.PlottableCommand | pk_graph_generator.py:130 | a command is plotted exactly when both the parsed name and the dose are non-empty/non-zero |
| CommandGrammar.ChosenUnique | pk_graph_generator.py:100-101 | the leftmost-greedy match is unique |
| CommandGrammar.ParseIgnoresCase | pk_graph_generator.py:101 | parsing a line and its lower-cased form give the same result |
| CommandGrammar.ParsedShape | pk_graph_generator.py:100-105 | a parsed name uses only `[a-z0-9 ]`, has no blank at either end, and the dose is the value of a digit string |
| CommandGrammar.ParseUnanchored | pk_graph_generator.py:100-102 | text before and after a parsable command never stops it from parsing |
| CommandGrammar.ParseRoundTrip | pk_graph_generator.py:100-108 | writing out `<keyword> <name> at <dose><spaces>mg` and parsing it gives back the name and the dose, whatever the name contains |
| CommandGrammar.MetforminExample | pk_graph_generator.py:95-97 | `show me metformin at 500 mg` parses to `("metformin", 500)` |
| CommandGrammar.WellbutrinExample | pk_graph_generator.py:95-97 | `plot wellbutrin xl at 300 mg` parses to `("wellbutrin xl", 300)` |
| TokenCommand.TokenDose | pk_graph_tool_ai.py:157-158 | a digit token reads as its decimal value; a token with no digit, or with a character that is not a digit, whitespace, `m` or `g`, reads as 0; a token with no whole `mg` but with a character that is neither digit nor whitespace (such as `500g`) reads as 0 |
| TokenCommand.ParseParts | pk_graph_tool_ai.py:152-161 | success exactly when `show`, `me` and `at` occur with a token after the first `at`; a missing keyword and a missing dose token are distinct errors; the drug's words are those strictly between the first `me` and the first `at`; the dose comes from the token after `at`; the unit is `mg` |
| TokenCommand.ParseTokens | pk_graph_tool_ai.py:152-159 | on success the drug is lower-case with no whitespace at either end, and the unit is `mg` |
| TokenCommand.ParseTokensIgnoresCase | pk_graph_tool_ai.py:152 | the fallback parser ignores letter case |
| TokenCommand.TokenDoseUnitInside | pk_graph_tool_ai.py:157-158 | one `mg` anywhere among the digits is dropped: `mg500`, `5mg00` and `500mg` read as 500 |
| TokenCommand.TokenDoseRoundTrip | pk_graph_tool_ai.py:157-158 | `str(n)` and `str(n) + "mg"` both read back as `n` |
| TokenCommand.ParseTokensRoundTrip | pk_graph_tool_ai.py:152-159 | `show me <words> at <n>mg` parses to the words joined by single blanks, `n`, and `mg`, for any lower-case words other than `at` (a later `me` among them is kept) |
| TokenCommand.ParseTokensNoDose | pk_graph_tool_ai.py:157 | a line ending in `at` fails with the missing-dose error |
| ResponseExtract.ExtractObject | pk_graph_tool_ai.py:49 | no result exactly when no substring matches `\{[^}]*\}`; otherwise a match at the leftmost position where one exists |
| ResponseExtract.FlatObjectUnique | pk_graph_tool_ai.py:49 | at one start position at most one text matches the pattern |
| ResponseExtract.ExtractStartsAtFirstBrace | pk_graph_tool_ai.py:49-50 | the match starts at the reply's first `{` and contains no `}` before its last character |
| ResponseExtract.ExtractNoneIff | pk_graph_tool_ai.py:49-53 | there is no match exactly when no `}` follows any `{` |
| ResponseExtract.ExtractFlatIdentity | pk_graph_tool_ai.py:49 | a reply that is one flat object is returned unchanged |
| ResponseExtract.ExtractFromNoise | pk_graph_tool_ai.py:46-51 | a flat object wrapped in text with no `{` before it is recovered exactly |
| ResponseExtract.TestRecordExtracted | pk_graph_tool_ai.py:132-135 | the self-test's record is found whole by the search |
| ResponseExtract.BlankIffAllSpace | pk_graph_tool_ai.py:40 | a reply is rejected as blank exactly when it is absent or all whitespace |
| ResponseExtract.ParseReply | pk_graph_tool_ai.py:37-57 | a blank reply gives nothing; a decodable reply gives its decoding; otherwise the decoding of the extracted object, or nothing; no path raises |
| ResponseExtract.ReplyDecodesPartOfReply | pk_graph_tool_ai.py:43-51 | any record returned is the decoding of a contiguous piece of the reply |
| ResponseExtract.BlankReplyIgnoresDecoder | pk_graph_tool_ai.py:40-41 | a blank reply is rejected before any decoding, whatever the decoder |
| ResponseExtract.ReplyRecoversWrappedObject | pk_graph_tool_ai.py:43-51 | an undecodable reply that wraps a flat object yields that object's decoding |
| Parameters.DrugTableWellFormed | pk_graph_generator.py:16-23 | every table entry has positive Vd, Ka, Ke and Ka different from Ke |
| Parameters.NormalizeName | pk_graph_generator.py:28-30 | `drug.lower().strip()` has no upper-case letter and no whitespace at either end |
| Parameters.LookupDrug | pk_graph_generator.py:28-38 | succeeds exactly when the lower-cased, stripped name is in the table, with that entry, whose formula divisor is non-zero; otherwise the error names the normalised name |
| Parameters.LookupIgnoresCase | pk_graph_generator.py:28-32 | names differing only in letter case look up alike |
| Parameters.LookupIgnoresPadding | pk_graph_generator.py:28-32 | surrounding whitespace never changes the lookup |
| Parameters.NormalizeIdempotent | pk_graph_generator.py:28-30 | normalising twice is normalising once, and a normalised name looks up like the raw one |
| Parameters.FallbackParams | pk_graph_tool_ai.py:79-85 | total; the table entry of the lower-cased name when present, the default triple otherwise; always positive with distinct rates |
| Parameters.ParamsFromResponse | pk_graph_tool_ai.py:69-74 | each of Vd, Ka, Ke independently takes its response field when present and its default when absent |
| Parameters.ResponseIgnoresOtherFields | pk_graph_tool_ai.py:70-74 | fields other than the three rate fields do not affect the triple |
| Parameters.EmptyResponseIsDefault | pk_graph_tool_ai.py:70-85 | an empty response gives the same triple as a name unknown to the fallback table |
| Parameters.ResolveParams | pk_graph_tool_ai.py:59-77 | a failed lookup gives the fallback triple; a response gives its per-field triple |
| Parameters.Guard | pk_graph_tool_ai.py:91-92 | equal rates become `Ka + 0.001`; otherwise nothing changes; afterwards the rates differ and Vd and Ke are unchanged |
| Parameters.GuardedDivisor | pk_graph_tool_ai.py:91-93 | after the guard the divisor `Vd * (Ka - Ke)` is non-zero exactly when Vd is |
| Parameters.GuardIdempotent | pk_graph_tool_ai.py:91-92 | the guard changes nothing the second time |
| Parameters.GuardKeepsPhysical | pk_graph_tool_ai.py:91-92 | a positive triple stays positive |
| Parameters.FallbackNeverBumped | pk_graph_tool_ai.py:81-92 | no fallback triple triggers the bump |
| Parameters.TablesDisagree | pk_graph_tool_ai.py:79-85 | the two files give metformin different elimination rates, and only the generator ignores a leading blank in the name |
| Chart.Linspace | pk_graph_generator.py:24 | `n` samples from `start` to `stop`, both included, evenly spaced |
| Chart.LinspaceIncreasing | pk_graph_generator.py:24 | on a rising interval the samples rise strictly and stay inside it |
| Chart.TimeGridShape | pk_graph_generator.py:24 | the grid has 100 samples from 0 to 24, all after the first positive |
| Chart.Concentration | pk_graph_generator.py:41-43 | the formula gives 0 at time 0 and 0 for a zero dose |
| Chart.ConcentrationLinearInDose | pk_graph_generator.py:41-43 | the curve is proportional to the dose |
| Chart.ConcentrationPositive | pk_graph_generator.py:41-43 | for positive parameters with distinct rates, a positive dose gives a positive concentration at every positive time |
| Chart.ConcentrationNonNegative | pk_graph_generator.py:41-43 | the concentration is never negative for a non-negative dose and time |
| Chart.ConcentrationFlipFlop | pk_graph_generator.py:41-43 | exchanging Ka and Ke scales the curve by Ke/Ka |
| Chart.Curve | pk_graph_generator.py:41-44 | the series has one value per grid point, the formula at that point |
| Chart.Title | pk_graph_generator.py:62 | the title is `Pharmacokinetics of `, then the drug, ` (Dose: ` and the decimal dose, then ` mg)` |
| Chart.TitleInjective | pk_graph_generator.py:62 | two titles are equal only for the same drug and dose |
| Chart.TraceName | pk_graph_generator.py:55 | the trace name is the drug, a blank, the decimal dose, then `mg` |
| Chart.BuildFigure | pk_graph_generator.py:50-67 | one trace with the given x and y values, named by `Chart.TraceName`, under the title and the two fixed axis titles |
| Chart.GeneratorFigure | pk_graph_generator.py:46-69 | fails exactly when the lookup fails, with its error; otherwise one trace named `<drug> <dose>mg` under the fixed axis titles, x the 100-point grid and y the formula at each point |
| Chart.GeneratorCurveShape | pk_graph_generator.py:41-57 | every y value of a generator figure is non-negative and the first is 0 |
| Chart.ToolFigure | pk_graph_tool_ai.py:87-116 | fails exactly when a lookup response gives volume 0; otherwise the figure of the guarded triple's curve |
| Chart.ToolFallbackAlwaysPlots | pk_graph_tool_ai.py:88-93 | without a lookup response the tool always draws the fallback triple's curve |
| Chart.ToolZeroDoseIsFlat | pk_graph_tool_ai.py:93 | a zero dose draws a flat line at 0 |
| Chart.FilesLabelAlike | pk_graph_tool_ai.py:96-116 | whenever both files draw a figure for the same drug and dose, with any lookup response, the figures share the title, the axis titles, the single trace's name and its time grid |
| Chart.FilesDisagreeOnMetformin | pk_graph_tool_ai.py:96-116 | for `metformin` at 500 mg without a lookup response, both files draw figures that are labelled alike from different parameter triples |
| Session.IsQuit | pk_graph_tool_ai.py:144 | a line ends the loop exactly when it has four characters, each the letter of `quit` in lower or upper case |
| Session.QuitInAnyCase | pk_graph_generator.py:126-127 | `quit`, `QUIT` and `Quit` end the generator's loop; neither `quit ` with a trailing blank nor `exit` is a quit line |
| Session.GeneratorStep | pk_graph_generator.py:122-142 | the loop stops exactly on `quit`; reports an unparsable line exactly when no plottable command is found; otherwise draws that command's figure or reports its lookup error |
| Session.CleanNameIsNormal | pk_graph_generator.py:28-30 | a name the grammar returns is already normalised |
| Session.GeneratorCommand | pk_graph_generator.py:129-133 | a well-formed command draws the named drug's table curve, or reports the unknown name |
| Session.GeneratorPlotsPositiveDoses | pk_graph_generator.py:130 | the generator never draws an empty name or a zero dose |
| Session.GeneratorPromptExample | pk_graph_generator.py:124-133 | the prompt's example `show me wellbutrin xl at 300 mg` is drawn with the title for `wellbutrin xl` at 300 mg |
| Session.GeneratorMetformin | pk_graph_generator.py:96 | the parser documentation's `show me metformin at 500 mg` is drawn with the title for `metformin` at 500 mg |
| Session.Interpret | pk_graph_tool_ai.py:149-161 | the service's record is used exactly when the reply decodes to a truthy record, and then as it is; otherwise the token parser's command or error |
| Session.ServiceWins | pk_graph_tool_ai.py:149-150 | a usable service record decides the outcome whatever the typed line says |
| Session.BlankReplyFallsBack | pk_graph_tool_ai.py:149-152 | a blank reply hands the line to the token parser, whatever the decoder |
| Session.ToolStep | pk_graph_tool_ai.py:142-176 | the loop stops exactly on `quit`; otherwise a parse failure reports the token parser's error, a token command is drawn with its drug and dose, and a service record is drawn with its fields or reported as unusable when they are missing; any figure is the tool's figure for some drug and dose |
| Session.Respond | pk_graph_tool_ai.py:147-176 | the turn after parsing: never quits, reports a parse error exactly when there is one, draws a token command with its own drug and dose, and hands a service record to `Session.DrawRecord` |
| Session.DrawRecord | pk_graph_tool_ai.py:163-169 | a record is unusable exactly when its fields cannot be read; otherwise its drug and dose are drawn |
| Session.Draw | pk_graph_tool_ai.py:163-169 | draws exactly when the tool's figure exists, and only the zero-volume error can stop it |
| Session.ToolOffline | pk_graph_tool_ai.py:147-169 | with both services silent, `show me <words> at <n>mg` draws the fallback curve titled with those words and `n` |

## Left out

- The language-service call, the lookup service's HTTP request and `raise_for_status` are left out because they are network I/O. Their results are parameters: the reply text (or none), and the decoded response map (or none).
- `json.loads` is an arbitrary partial function passed in, and `json.dumps` is not modelled. The figure is a record rather than its JSON text.
- Floating point is left out: all quantities are exact reals.
  - The `np.linspace` values are exact.
  - `Ka + 0.001` is never rounded back to `Ka`, and nothing overflows.
- `numpy.exp` is a parameter, because it is transcendental. The curve lemmas assume only that it maps 0 to 1 and is strictly increasing.
- Lookup-response values are reals. A non-numeric or `null` field, which would raise inside the formula, is not modelled.
- Session.ToolStep: reading `drug` and `dosage` from a service record is a parameter `fields`, and the dosage is a natural number. A `dosage` of another type is not modelled.
- Session.ToolStep: the error reports printed by the loop's handler are collapsed into three error kinds.
- Unicode behaviour of `lower`, `strip`, `split`, `\s`, `\d` and `isdigit` is left out; every one of them is restricted to ASCII.
- The `input()` loops themselves, `fig.show()`, Plotly rendering and the debug `print`s are left out because they are I/O. One turn of each loop is modelled.
- The second assertion of `test_regex` compares decoded JSON, which depends on the decoder. Only the first assertion is modelled (`ResponseExtract.TestRecordExtracted`).
- Text.RemoveAll: its own contract states only that removal never lengthens the string. The result on every string is stated by two lemmas instead: `Text.RemoveAllAbsent` covers a string without the pattern, and `Text.RemoveAllFirst` covers the first occurrence and what follows it.
- TokenCommand.ParseParts: the drug is stated through `Split` (its words are the tokens between `me` and `at`), not as the exact single-blank join; `TokenCommand.ParseTokensRoundTrip` gives the exact string for written-out commands.
- Chart.Linspace: only the end-point-included form used by both files is modelled.
- CommandGrammar.ParseUserInput: the limit on the length of a decimal string that `int()` converts (4300 digits by default since Python 3.11) is not modelled. A dose of more digits parses here, while the Python code catches the ValueError and returns `(None, None)`.
- TokenCommand.TokenDose: no contract names the dose of a token that holds `mg` more than once, or `mg` beside a further `m` or `g`, such as `5mgmg` or `mmgg`. There the value follows only from the lemmas about `Text.RemoveAll` and `Text.Strip`.
- TokenCommand.TokenDose: the same `int()` digit limit is not modelled. A dose token of more than 4300 digits reads as its value here, while the tool's loop reports the ValueError.
- The API key and base URL configuration and the client construction are left out because they are configuration.

=== FILE: chart.dfy ===
/**
 * The concentration curve and the figure both files draw.
 *
 * The curve is the one-compartment model with first-order absorption,
 * `C(t) = dose * Ka / (Vd * (Ka - Ke)) * (exp(-Ke t) - exp(-Ka t))`, sampled
 * on `numpy.linspace(0, 24, 100)`. Real numbers are exact here; the
 * exponential is a parameter, constrained only where a lemma needs it.
 */
module Chart {
  import opened Wrappers
  import opened Text
  import opened Parameters

  // ---------------------------------------------------------------------------
  // The time grid
  // ---------------------------------------------------------------------------

  /** The spacing of `n >= 2` samples. */
  function Spacing(start: real, stop: real, n: nat): real
    requires n >= 2
  {
    (stop - start) / (n - 1) as real
  }

  /** `n - 1` steps span the interval. */
  lemma SpacingSpan(start: real, stop: real, n: nat)
    requires n >= 2
    ensures Spacing(start, stop, n) * (n - 1) as real == stop - start
    ensures start < stop ==> Spacing(start, stop, n) > 0.0
  {
    var m := (n - 1) as real;
    assert m > 0.0;
  }

  /** The distance covered by `k` steps of length `sp`. */
  function Steps(sp: real, k: nat): real {
    sp * k as real
  }

  /** One more step adds the spacing. */
  lemma NextStep(sp: real)
    ensures forall k: nat :: Steps(sp, k + 1) - Steps(sp, k) == sp
  {
    forall k: nat
      ensures Steps(sp, k + 1) - Steps(sp, k) == sp
    {
      assert (k + 1) as real == k as real + 1.0;
    }
  }

  /** `numpy.linspace(start, stop, n)` with the end point included: sample
      `k` is `start + k * step`. */
  function Linspace(start: real, stop: real, n: nat): (r: seq<real>)
    ensures |r| == n
    ensures n >= 1 ==> r[0] == start
    ensures n >= 2 ==> r[n - 1] == stop
    ensures n >= 2 ==> forall k :: 0 <= k < n - 1 ==> r[k + 1] - r[k] == Spacing(start, stop, n)
  {
    if n < 2 then seq(n, k => start)
    else
      var sp := Spacing(start, stop, n);
      SpacingSpan(start, stop, n);
      NextStep(sp);
      seq(n, k requires 0 <= k < n => start + Steps(sp, k))
  }

  /** Sample `k` lies `k` steps from the start. */
  lemma LinspaceStep(start: real, stop: real, n: nat, k: nat)
    requires 2 <= n && k < n
    ensures Linspace(start, stop, n)[k] == start + Steps(Spacing(start, stop, n), k)
    ensures Steps(Spacing(start, stop, n), n - 1) == stop - start
    ensures start < stop ==> Spacing(start, stop, n) > 0.0
  {
    SpacingSpan(start, stop, n);
  }

  /** Two samples compare as their indices do. */
  lemma LinspaceOrder(start: real, stop: real, n: nat, i: nat, j: nat)
    requires start < stop && i < j < n
    ensures Linspace(start, stop, n)[i] < Linspace(start, stop, n)[j]
  {
    var sp := Spacing(start, stop, n);
    LinspaceStep(start, stop, n, i);
    LinspaceStep(start, stop, n, j);
    StepsIncrease(sp, i, j);
  }

  /** Every sample lies in the interval. */
  lemma LinspaceWithin(start: real, stop: real, n: nat, k: nat)
    requires start < stop && k < n
    ensures start <= Linspace(start, stop, n)[k] <= stop
  {
    if n >= 2 {
      var sp := Spacing(start, stop, n);
      LinspaceStep(start, stop, n, k);
      StepsIncrease(sp, k, n - 1);
    }
  }

  /** On a rising interval the samples rise strictly and stay inside it. */
  lemma LinspaceIncreasing(start: real, stop: real, n: nat)
    requires start < stop
    ensures forall i, j :: 0 <= i < j < n ==> Linspace(start, stop, n)[i] < Linspace(start, stop, n)[j]
    ensures forall k :: 0 <= k < n ==> start <= Linspace(start, stop, n)[k] <= stop
  {
    forall i, j | 0 <= i < j < n
      ensures Linspace(start, stop, n)[i] < Linspace(start, stop, n)[j]
    {
      LinspaceOrder(start, stop, n, i, j);
    }
    forall k | 0 <= k < n
      ensures start <= Linspace(start, stop, n)[k] <= stop
    {
      LinspaceWithin(start, stop, n, k);
    }
  }

  lemma StepsIncrease(step: real, i: nat, j: nat)
    requires step > 0.0 && i <= j
    ensures 0.0 <= Steps(step, i) <= Steps(step, j)
    ensures i < j ==> Steps(step, i) < Steps(step, j)
  {
    assert Steps(step, j) - Steps(step, i) == step * (j - i) as real;
  }

  const Hours: real := 24.0
  const Samples: nat := 100

  /** `self.time_points` */
  function TimeGrid(): seq<real> {
    Linspace(0.0, Hours, Samples)
  }

  lemma TimeGridShape()
    ensures |TimeGrid()| == Samples
    ensures TimeGrid()[0] == 0.0 && TimeGrid()[Samples - 1] == Hours
    ensures forall k :: 0 <= k < Samples ==> 0.0 <= TimeGrid()[k] <= Hours
    ensures forall k :: 1 <= k < Samples ==> TimeGrid()[k] > 0.0
  {
    LinspaceIncreasing(0.0, Hours, Samples);
  }

  // ---------------------------------------------------------------------------
  // The one-compartment model
  // ---------------------------------------------------------------------------

  /** What the lemmas below need of `numpy.exp`: it maps 0 to 1 and is
      strictly increasing. */
  ghost predicate ExpLike(exp: real -> real) {
    && exp(0.0) == 1.0
    && forall x, y :: x < y ==> exp(x) < exp(y)
  }

  /** `exp(-Ke t) - exp(-Ka t)`: the bracket of the formula. */
  function Bracket(exp: real -> real, ka: real, ke: real, t: real): real {
    exp(-ke * t) - exp(-ka * t)
  }

  /** The bracket vanishes at time zero. */
  lemma BracketAtZero(exp: real -> real, ka: real, ke: real)
    ensures Bracket(exp, ka, ke, 0.0) == 0.0
  {
    assert -ke * 0.0 == 0.0 && -ka * 0.0 == 0.0;
  }

  /** After time zero the bracket has the sign of `Ka - Ke`. */
  lemma BracketSign(exp: real -> real, ka: real, ke: real, t: real)
    requires ExpLike(exp) && t > 0.0
    ensures ka > ke ==> Bracket(exp, ka, ke, t) > 0.0
    ensures ka < ke ==> Bracket(exp, ka, ke, t) < 0.0
  {
    if ka > ke {
      assert (ka - ke) * t > 0.0;
      assert -ka * t < -ke * t;
    } else if ka < ke {
      assert (ke - ka) * t > 0.0;
      assert -ke * t < -ka * t;
    }
  }

  /** Exchanging the rates negates the bracket. */
  lemma BracketSwap(exp: real -> real, ka: real, ke: real, t: real)
    ensures Bracket(exp, ke, ka, t) == -Bracket(exp, ka, ke, t)
  {
  }

  /** `dose * Ka / (Vd * (Ka - Ke))`: the factor before the bracket. */
  function Coefficient(dose: real, p: Params): real
    requires NonDegenerate(p)
  {
    dose * p.ka / (p.vd * (p.ka - p.ke))
  }

  /** The concentration at time `t`. */
  function Concentration(dose: real, p: Params, exp: real -> real, t: real): (r: real)
    requires NonDegenerate(p)
    ensures dose == 0.0 ==> r == 0.0
    ensures t == 0.0 ==> r == 0.0
  {
    BracketAtZero(exp, p.ka, p.ke);
    Coefficient(dose, p) * Bracket(exp, p.ka, p.ke, t)
  }

  /** Scaling the dose scales the curve: it is linear in the dose. */
  lemma ConcentrationLinearInDose(c: real, dose: real, p: Params, exp: real -> real, t: real)
    requires NonDegenerate(p)
    ensures Concentration(c * dose, p, exp, t) == c * Concentration(dose, p, exp, t)
  {
    var k := Coefficient(dose, p);
    var b := Bracket(exp, p.ka, p.ke, t);
    CoefficientLinear(c, dose, p);
    assert (c * k) * b == c * (k * b);
  }

  lemma CoefficientLinear(c: real, dose: real, p: Params)
    requires NonDegenerate(p)
    ensures Coefficient(c * dose, p) == c * Coefficient(dose, p)
  {
    var den := p.vd * (p.ka - p.ke);
    assert (c * dose) * p.ka / den == c * (dose * p.ka / den);
  }

  /** For a physical triple with distinct rates the drug is present at every
      positive time after a positive dose. */
  lemma ConcentrationPositive(dose: real, p: Params, exp: real -> real, t: real)
    requires Physical(p) && p.ka != p.ke && ExpLike(exp)
    requires dose > 0.0 && t > 0.0
    ensures NonDegenerate(p)
    ensures Concentration(dose, p, exp, t) > 0.0
  {
    var den := p.vd * (p.ka - p.ke);
    var a := Coefficient(dose, p);
    var b := Bracket(exp, p.ka, p.ke, t);
    BracketSign(exp, p.ka, p.ke, t);
    assert dose * p.ka > 0.0;
    if p.ka > p.ke {
      assert den > 0.0;
      assert a > 0.0 && b > 0.0;
    } else {
      assert den < 0.0;
      assert a < 0.0 && b < 0.0;
    }
    assert a * b > 0.0;
  }

  /** The concentration never goes negative for a non-negative dose. */
  lemma ConcentrationNonNegative(dose: real, p: Params, exp: real -> real, t: real)
    requires Physical(p) && p.ka != p.ke && ExpLike(exp)
    requires dose >= 0.0 && t >= 0.0
    ensures NonDegenerate(p)
    ensures Concentration(dose, p, exp, t) >= 0.0
  {
    if dose > 0.0 && t > 0.0 {
      ConcentrationPositive(dose, p, exp, t);
    }
  }

  /** The triple with absorption and elimination rates exchanged. */
  function Swap(p: Params): (r: Params)
    ensures r.vd == p.vd && r.ka == p.ke && r.ke == p.ka
  {
    Params(p.vd, p.ke, p.ka)
  }

  /** Exchanging the two rates scales the curve by `Ke / Ka` (the
      "flip-flop" symmetry of the formula). */
  lemma ConcentrationFlipFlop(dose: real, p: Params, exp: real -> real, t: real)
    requires NonDegenerate(p)
    ensures NonDegenerate(Swap(p))
    ensures p.ka * Concentration(dose, Swap(p), exp, t) == p.ke * Concentration(dose, p, exp, t)
  {
    var q := Swap(p);
    var b := Bracket(exp, p.ka, p.ke, t);
    BracketSwap(exp, p.ka, p.ke, t);
    CoefficientSwap(dose, p);
    var kq, kp := Coefficient(dose, q), Coefficient(dose, p);
    assert Concentration(dose, q, exp, t) == kq * -b;
    assert Concentration(dose, p, exp, t) == kp * b;
    assert p.ka * (kq * -b) == -(p.ka * kq) * b;
  }

  /** The coefficient side of the symmetry. */
  lemma CoefficientSwap(dose: real, p: Params)
    requires NonDegenerate(p)
    ensures NonDegenerate(Swap(p))
    ensures p.ka * Coefficient(dose, Swap(p)) == -(p.ke * Coefficient(dose, p))
  {
    var q := Swap(p);
    var den := p.vd * (p.ka - p.ke);
    assert q.vd * (q.ka - q.ke) == -den;
    var c := dose / den;
    assert Coefficient(dose, q) == -(c * p.ke) by {
      assert dose * p.ke / -den == -(c * p.ke);
    }
    assert Coefficient(dose, p) == c * p.ka;
  }

  /** The curve sampled on a grid: numpy's element-wise evaluation. */
  function Curve(dose: real, p: Params, exp: real -> real, ts: seq<real>): (r: seq<real>)
    requires NonDegenerate(p)
    ensures |r| == |ts|
    ensures forall k :: 0 <= k < |ts| ==> r[k] == Concentration(dose, p, exp, ts[k])
  {
    seq(|ts|, k requires 0 <= k < |ts| => Concentration(dose, p, exp, ts[k]))
  }

  // ---------------------------------------------------------------------------
  // The figure
  // ---------------------------------------------------------------------------

  datatype Trace = Trace(kind: string, mode: string, name: string, x: seq<real>, y: seq<real>, color: string, width: nat)
  datatype Layout = Layout(title: string, xAxisTitle: string, yAxisTitle: string, template: string)
  datatype Figure = Figure(traces: seq<Trace>, layout: Layout)

  const TitleLead: string := "Pharmacokinetics of "
  const DoseLead: string := " (Dose: "
  const DoseTrail: string := " mg)"

  /** `f"Pharmacokinetics of {drug} (Dose: {dose} mg)"` */
  function Title(drug: string, dose: nat): (r: string)
    ensures |TitleLead| + |DoseTrail| <= |r|
    ensures r[..|TitleLead|] == TitleLead && r[|r| - |DoseTrail|..] == DoseTrail
    ensures r[|TitleLead|..|r| - |DoseTrail|] == drug + (DoseLead + NatToString(dose))
  {
    var u := drug + (DoseLead + NatToString(dose));
    var r := TitleLead + u + DoseTrail;
    assert r[|TitleLead|..|r| - |DoseTrail|] == u;
    TitleLead + drug + DoseLead + NatToString(dose) + DoseTrail
  }

  /** `f"{drug} {dose}mg"` */
  function TraceName(drug: string, dose: nat): (r: string)
    ensures |r| == |drug| + 1 + |NatToString(dose)| + 2
    ensures r[..|drug|] == drug && r[|drug|] == ' '
    ensures r[|drug| + 1..|r| - 2] == NatToString(dose) && r[|r| - 2..] == "mg"
  {
    var r := drug + " " + NatToString(dose) + "mg";
    assert r == drug + (" " + (NatToString(dose) + "mg"));
    r
  }

  /** The figure of `generate_plotly_json` and `plot_graph`, which build
      the same trace and layout in both files. */
  function BuildFigure(drug: string, dose: nat, time: seq<real>, conc: seq<real>): (r: Figure)
    ensures |r.traces| == 1 && r.traces[0].x == time && r.traces[0].y == conc
    ensures r.traces[0].name == TraceName(drug, dose) && r.layout.title == Title(drug, dose)
    ensures r.layout.xAxisTitle == "Time (hours)" && r.layout.yAxisTitle == "Concentration (mg/L)"
  {
    Figure([Trace("scatter", "lines", TraceName(drug, dose), time, conc, "blue", 2)],
           Layout(Title(drug, dose), "Time (hours)", "Concentration (mg/L)", "plotly_white"))
  }

  /** A figure of one blue line for `drug` at `dose`, plotting the curve of
      `p` (whose formula divisor is non-zero) over the time grid. */
  ghost predicate PlotsCurve(f: Figure, drug: string, dose: nat, p: Params, exp: real -> real) {
    && NonDegenerate(p)
    && |f.traces| == 1
    && f.traces[0].name == TraceName(drug, dose)
    && f.layout.title == Title(drug, dose)
    && f.layout.xAxisTitle == "Time (hours)" && f.layout.yAxisTitle == "Concentration (mg/L)"
    && f.traces[0].x == TimeGrid()
    && |f.traces[0].y| == Samples
    && forall k :: 0 <= k < Samples ==> f.traces[0].y[k] == Concentration(dose as real, p, exp, TimeGrid()[k])
  }

  /** In `d + " (Dose: " + digits` a blank followed by `(` occurs right
      after `d` and nowhere later. */
  lemma DoseAnchor(d: string, n: string)
    requires AllDigits(n)
    ensures var u := d + (DoseLead + n);
      && u[|d|] == ' ' && u[|d| + 1] == '('
      && forall q :: |d| < q && q + 1 < |u| ==> !(u[q] == ' ' && u[q + 1] == '(')
  {
    var t := DoseLead + n;
    var u := d + t;
    forall q | |d| < q && q + 1 < |u|
      ensures !(u[q] == ' ' && u[q + 1] == '(')
    {
      var l := q - |d|;
      assert u[q] == t[l] && u[q + 1] == t[l + 1];
      if l >= |DoseLead| {
        assert t[l] == n[l - |DoseLead|];
      } else if l + 1 >= |DoseLead| {
        assert t[l + 1] == n[l + 1 - |DoseLead|];
      }
    }
  }

  /** The blank before `(Dose:` separates the drug from the dose digits. */
  lemma DoseSplit(d1: string, s1: string, d2: string, s2: string)
    requires AllDigits(s1) && AllDigits(s2)
    requires d1 + (DoseLead + s1) == d2 + (DoseLead + s2)
    ensures d1 == d2 && s1 == s2
  {
    var u := d1 + (DoseLead + s1);
    DoseAnchor(d1, s1);
    DoseAnchor(d2, s2);
    assert |d1| == |d2|;
    assert d1 == u[..|d1|] && d2 == u[..|d2|];
    assert s1 == u[|d1| + |DoseLead|..] && s2 == u[|d2| + |DoseLead|..];
  }

  /** Different commands give different titles: the title determines the
      drug and the dose. */
  lemma TitleInjective(d1: string, n1: nat, d2: string, n2: nat)
    requires Title(d1, n1) == Title(d2, n2)
    ensures d1 == d2 && n1 == n2
  {
    DoseSplit(d1, NatToString(n1), d2, NatToString(n2));
    DecimalOfNatToString(n1);
    DecimalOfNatToString(n2);
  }

  // ---------------------------------------------------------------------------
  // pk_graph_generator.py
  // ---------------------------------------------------------------------------

  /** The generator's `generate_plotly_json` / `plot_graph` before
      serialising or rendering: the raw drug name labels the figure, the
      normalised one selects the parameters. */
  function GeneratorFigure(drug: string, dose: nat, exp: real -> real): (r: Result<Figure, LookupError>)
    ensures r.Err? <==> LookupDrug(drug).Err?
    ensures r.Err? ==> r.error == UnknownDrug(NormalizeName(drug))
    ensures r.Ok? ==> PlotsCurve(r.value, drug, dose, LookupDrug(drug).value, exp)
  {
    match LookupDrug(drug)
    case Err(e) => Err(e)
    case Ok(p) => Ok(BuildFigure(drug, dose, TimeGrid(), Curve(dose as real, p, exp, TimeGrid())))
  }

  /** Every sample of a generator figure is non-negative, and the first is 0. */
  lemma GeneratorCurveShape(drug: string, dose: nat, exp: real -> real)
    requires ExpLike(exp) && GeneratorFigure(drug, dose, exp).Ok?
    ensures var y := GeneratorFigure(drug, dose, exp).value.traces[0].y;
      y[0] == 0.0 && forall k :: 0 <= k < |y| ==> y[k] >= 0.0
  {
    var p := LookupDrug(drug).value;
    DrugTableWellFormed();
    TimeGridShape();
    forall k | 0 <= k < Samples
      ensures Concentration(dose as real, p, exp, TimeGrid()[k]) >= 0.0
    {
      ConcentrationNonNegative(dose as real, p, exp, TimeGrid()[k]);
    }
  }

  // ---------------------------------------------------------------------------
  // pk_graph_tool_ai.py
  // ---------------------------------------------------------------------------

  /** The ZeroDivisionError of the coefficient when the volume is 0. */
  datatype ChartError = ZeroVolume

  /** The tool's `calculate_concentration` with the figure built around it.
      `response` is the decoded lookup-service reply for `drug` (`None` when
      the lookup failed). */
  function ToolFigure(drug: string, dose: nat, response: Option<map<string, real>>, exp: real -> real): (r: Result<Figure, ChartError>)
    ensures r.Err? <==> response.Some? && ParamsFromResponse(response.value).vd == 0.0
    ensures r.Err? ==> r.error == ZeroVolume
    ensures r.Ok? ==> NonDegenerate(Guard(ResolveParams(drug, response)))
    ensures r.Ok? ==> PlotsCurve(r.value, drug, dose, Guard(ResolveParams(drug, response)), exp)
  {
    var p := Guard(ResolveParams(drug, response));
    GuardedDivisor(ResolveParams(drug, response));
    if !NonDegenerate(p) then Err(ZeroVolume)
    else Ok(BuildFigure(drug, dose, TimeGrid(), Curve(dose as real, p, exp, TimeGrid())))
  }

  /** Without a lookup response the tool always draws a curve, and it is
      the fallback triple's curve. */
  lemma ToolFallbackAlwaysPlots(drug: string, dose: nat, exp: real -> real)
    ensures ToolFigure(drug, dose, None, exp).Ok?
    ensures PlotsCurve(ToolFigure(drug, dose, None, exp).value, drug, dose, FallbackParams(drug), exp)
  {
    FallbackNeverBumped(drug);
  }

  /** A zero dose, which the tool's token parser produces for an unreadable
      dose token, draws a flat line at 0. */
  lemma ToolZeroDoseIsFlat(drug: string, response: Option<map<string, real>>, exp: real -> real)
    requires ToolFigure(drug, 0, response, exp).Ok?
    ensures forall k :: 0 <= k < Samples ==> ToolFigure(drug, 0, response, exp).value.traces[0].y[k] == 0.0
  {
    var p := Guard(ResolveParams(drug, response));
    forall k | 0 <= k < Samples
      ensures Concentration(0.0, p, exp, TimeGrid()[k]) == 0.0
    {
      ZeroDose(p, exp, TimeGrid()[k]);
    }
  }

  /** No dose, no drug. */
  lemma ZeroDose(p: Params, exp: real -> real, t: real)
    requires NonDegenerate(p)
    ensures Concentration(0.0, p, exp, t) == 0.0
  {
    assert 0.0 * p.ka == 0.0;
  }

  /** Whenever both files draw a figure for the same drug and dose, the
      figures carry the same title, axis titles and trace name. */
  lemma FilesLabelAlike(drug: string, dose: nat, response: Option<map<string, real>>, exp: real -> real)
    requires GeneratorFigure(drug, dose, exp).Ok? && ToolFigure(drug, dose, response, exp).Ok?
    ensures GeneratorFigure(drug, dose, exp).value.layout == ToolFigure(drug, dose, response, exp).value.layout
    ensures |GeneratorFigure(drug, dose, exp).value.traces| == |ToolFigure(drug, dose, response, exp).value.traces| == 1
    ensures GeneratorFigure(drug, dose, exp).value.traces[0].name == ToolFigure(drug, dose, response, exp).value.traces[0].name
    ensures GeneratorFigure(drug, dose, exp).value.traces[0].x == ToolFigure(drug, dose, response, exp).value.traces[0].x
  {
  }

  /** For `metformin` at 500 mg both files draw, labelled alike, from
      different parameter triples. */
  lemma FilesDisagreeOnMetformin(exp: real -> real)
    ensures GeneratorFigure("metformin", 500, exp).Ok? && ToolFigure("metformin", 500, None, exp).Ok?
    ensures GeneratorFigure("metformin", 500, exp).value.layout == ToolFigure("metformin", 500, None, exp).value.layout
    ensures GeneratorFigure("metformin", 500, exp).value.traces[0].name == ToolFigure("metformin", 500, None, exp).value.traces[0].name
    ensures LookupDrug("metformin").value != Guard(ResolveParams("metformin", None))
  {
    TablesDisagree();
    FallbackNeverBumped("metformin");
  }
}

=== FILE: command_grammar.dfy ===
/**
 * The command grammar of pk_graph_generator.py: an unanchored search for
 *
 *     (?:show me|plot) ([a-z0-9 ]+) at (\d+)\s*mg
 *
 * in the lower-cased input. `MatchAt` states what it means for the pattern
 * to match with the drug-name group ending at a given index; the search
 * functions implement the backtracking engine's choice (leftmost start,
 * then the longest name group), and `ParseUserInput` is proved to return
 * exactly the groups of that choice.
 */
module CommandGrammar {
  import opened Wrappers
  import opened Text

  /** The class `[a-z0-9 ]` of the drug-name group. */
  predicate IsNameChar(c: char) {
    ('a' <= c <= 'z') || IsDigit(c) || c == ' '
  }

  predicate AllName(s: string) {
    forall i :: 0 <= i < |s| ==> IsNameChar(s[i])
  }

  /** `(?:show me|plot) ` at index `i`: where the name group then starts.
      The alternatives begin with different letters, so at most one applies. */
  function NameStart(s: string, i: nat): (r: Option<nat>)
    ensures r.Some? ==> r.value <= |s|
  {
    if StartsWith(s, i, "show me ") then Some(i + 8)
    else if StartsWith(s, i, "plot ") then Some(i + 5)
    else None
  }

  /** ` at (\d+)\s*mg` read at `e` with the digit group `s[e+4..d]` and the
      `\s*` run `s[d..w]`. */
  ghost predicate TailAt(s: string, e: nat, d: nat, w: nat) {
    && e + 4 < d <= w
    && w + 2 <= |s|
    && StartsWith(s, e, " at ")
    && AllDigits(s[e + 4..d])
    && AllSpace(s[d..w])
    && StartsWith(s, w, "mg")
  }

  ghost predicate Tail(s: string, e: nat) {
    exists d: nat, w: nat :: TailAt(s, e, d, w)
  }

  /** The whole pattern matches starting at `i` with the name group `s[p..e]`. */
  ghost predicate MatchAt(s: string, i: nat, e: nat) {
    && NameStart(s, i).Some?
    && NameStart(s, i).value < e <= |s|
    && AllName(s[NameStart(s, i).value..e])
    && Tail(s, e)
  }

  /** The match `re.search` reports: the leftmost start, and at that start
      the longest name group (the greedy `+`). */
  ghost predicate Chosen(s: string, i: nat, e: nat) {
    && MatchAt(s, i, e)
    && (forall i': nat, e': nat :: MatchAt(s, i', e') ==> i <= i')
    && (forall e': nat :: MatchAt(s, i, e') ==> e' <= e)
  }

  // ---------------------------------------------------------------------------
  // The engine
  // ---------------------------------------------------------------------------

  function DigitEnd(s: string, j: nat): (r: nat)
    requires j <= |s|
    ensures j <= r <= |s| && AllDigits(s[j..r])
    ensures r == |s| || !IsDigit(s[r])
    decreases |s| - j
  {
    if j < |s| && IsDigit(s[j]) then DigitEnd(s, j + 1) else j
  }

  function SpaceEnd(s: string, j: nat): (r: nat)
    requires j <= |s|
    ensures j <= r <= |s| && AllSpace(s[j..r])
    ensures r == |s| || !IsSpace(s[r])
    decreases |s| - j
  {
    if j < |s| && IsSpace(s[j]) then SpaceEnd(s, j + 1) else j
  }

  function NameEnd(s: string, j: nat): (r: nat)
    requires j <= |s|
    ensures j <= r <= |s| && AllName(s[j..r])
    ensures r == |s| || !IsNameChar(s[r])
    decreases |s| - j
  {
    if j < |s| && IsNameChar(s[j]) then NameEnd(s, j + 1) else j
  }

  /** A run of digits that stops before a non-digit is the one `DigitEnd` finds. */
  lemma DigitsForced(s: string, j: nat, d: nat)
    requires j <= d <= |s| && AllDigits(s[j..d]) && (d == |s| || !IsDigit(s[d]))
    ensures d == DigitEnd(s, j)
  {
    var d0 := DigitEnd(s, j);
    assert forall k :: j <= k < d ==> IsDigit(s[k]) by {
      assert forall k :: j <= k < d ==> s[k] == s[j..d][k - j];
    }
    assert forall k :: j <= k < d0 ==> IsDigit(s[k]) by {
      assert forall k :: j <= k < d0 ==> s[k] == s[j..d0][k - j];
    }
  }

  /** A run of blanks that stops before a non-blank is the one `SpaceEnd` finds. */
  lemma SpacesForced(s: string, j: nat, w: nat)
    requires j <= w <= |s| && AllSpace(s[j..w]) && (w == |s| || !IsSpace(s[w]))
    ensures w == SpaceEnd(s, j)
  {
    var w0 := SpaceEnd(s, j);
    assert forall k :: j <= k < w ==> IsSpace(s[k]) by {
      assert forall k :: j <= k < w ==> s[k] == s[j..w][k - j];
    }
    assert forall k :: j <= k < w0 ==> IsSpace(s[k]) by {
      assert forall k :: j <= k < w0 ==> s[k] == s[j..w0][k - j];
    }
  }

  /** Neither `\d+` nor `\s*` can give back characters: the next pattern
      element (`\s`, resp. `m`) never matches a digit, resp. a space. */
  lemma TailForced(s: string, e: nat)
    ensures forall d: nat, w: nat :: TailAt(s, e, d, w) ==>
      e + 4 <= |s| && d == DigitEnd(s, e + 4) && w == SpaceEnd(s, d)
  {
    forall d: nat, w: nat | TailAt(s, e, d, w)
      ensures d == DigitEnd(s, e + 4) && w == SpaceEnd(s, d)
    {
      assert s[w] == 'm' by {
        assert s[w..w + 2] == "mg";
      }
      if d < w {
        assert s[d] == s[d..w][0];
      }
      DigitsForced(s, e + 4, d);
      SpacesForced(s, d, w);
    }
  }

  /** Decides `Tail(s, e)` and returns the dose digits group. */
  function DoseDigits(s: string, e: nat): (r: Option<string>)
    ensures r.Some? <==> Tail(s, e)
    ensures r.Some? ==> IsDigitString(r.value)
    ensures forall d: nat, w: nat :: TailAt(s, e, d, w) ==> r == Some(s[e + 4..d])
  {
    TailForced(s, e);
    if StartsWith(s, e, " at ") then
      var d := DigitEnd(s, e + 4);
      var w := SpaceEnd(s, d);
      if e + 4 < d && StartsWith(s, w, "mg") then
        assert TailAt(s, e, d, w);
        Some(s[e + 4..d])
      else
        None
    else
      None
  }

  lemma AllNamePrefix(s: string, p: nat, e: nat, m: nat)
    requires p <= e <= m <= |s| && AllName(s[p..m])
    ensures AllName(s[p..e])
  {
    assert forall k :: 0 <= k < e - p ==> s[p..e][k] == s[p..m][k];
  }

  /** The greedy name group backing off one character at a time from `e`
      until the rest of the pattern matches: the largest end in `(p, e]`. */
  function BackOff(s: string, p: nat, e: nat): (r: Option<nat>)
    requires p <= e <= |s|
    ensures r.Some? ==> p < r.value <= e && Tail(s, r.value)
    ensures r.Some? ==> forall e': nat :: r.value < e' <= e ==> !Tail(s, e')
    ensures r.None? ==> forall e': nat :: p < e' <= e ==> !Tail(s, e')
    decreases e - p
  {
    if e == p then None
    else if DoseDigits(s, e).Some? then Some(e)
    else BackOff(s, p, e - 1)
  }

  /** No run of name characters from `p` goes past `NameEnd`. */
  lemma NameEndMax(s: string, p: nat)
    requires p <= |s|
    ensures forall e': nat :: p < e' <= |s| && AllName(s[p..e']) ==> e' <= NameEnd(s, p)
  {
    var m := NameEnd(s, p);
    forall e': nat | p < e' <= |s| && AllName(s[p..e'])
      ensures e' <= m
    {
      assert forall k :: p <= k < e' ==> IsNameChar(s[k]) by {
        assert forall k :: p <= k < e' ==> s[k] == s[p..e'][k - p];
      }
    }
  }

  /** The longest name group of a match starting at `i`, if there is one. */
  function LongestAt(s: string, i: nat): (r: Option<nat>)
    ensures r.Some? ==> MatchAt(s, i, r.value)
    ensures r.Some? ==> forall e': nat :: MatchAt(s, i, e') ==> e' <= r.value
    ensures r.None? ==> forall e': nat :: !MatchAt(s, i, e')
  {
    match NameStart(s, i)
    case None => None
    case Some(p) =>
      var m := NameEnd(s, p);
      var r := BackOff(s, p, m);
      NameEndMax(s, p);
      if r.Some? then
        AllNamePrefix(s, p, r.value, m);
        r
      else
        r
  }

  /** `re.search` from index `i` on. */
  function SearchFrom(s: string, i: nat): (r: Option<(nat, nat)>)
    requires i <= |s|
    ensures r.Some? ==> i <= r.value.0 && MatchAt(s, r.value.0, r.value.1)
    ensures r.Some? ==> forall i': nat, e': nat :: i <= i' < r.value.0 ==> !MatchAt(s, i', e')
    ensures r.Some? ==> forall e': nat :: MatchAt(s, r.value.0, e') ==> e' <= r.value.1
    ensures r.None? ==> forall i': nat, e': nat :: i <= i' ==> !MatchAt(s, i', e')
    decreases |s| - i
  {
    match LongestAt(s, i)
    case Some(e) => Some((i, e))
    case None =>
      if i == |s| then
        assert forall i': nat, e': nat :: i < i' ==> !MatchAt(s, i', e');
        None
      else
        SearchFrom(s, i + 1)
  }

  /** The match `re.search` reports for the whole string. */
  function Search(s: string): (r: Option<(nat, nat)>)
    ensures r.Some? ==> Chosen(s, r.value.0, r.value.1)
    ensures r.None? <==> forall i: nat, e: nat :: !MatchAt(s, i, e)
  {
    SearchFrom(s, 0)
  }

  // ---------------------------------------------------------------------------
  // parse_user_input
  // ---------------------------------------------------------------------------

  /** A successful parse: `(drug, dose)`. */
  datatype Parsed = Parsed(drug: string, dose: nat)

  /** `(group(1).strip(), int(group(2)))` of the match with name group `s[p..e]`. */
  function Groups(s: string, i: nat, e: nat): Parsed
    requires MatchAt(s, i, e)
  {
    Parsed(Strip(s[NameStart(s, i).value..e]), DecimalValue(DoseDigits(s, e).value))
  }

  /** `parse_user_input`: `None` stands for the `(None, None)` answer. The
      parse succeeds exactly when the pattern occurs in the lower-cased input,
      and then yields the groups of the leftmost, longest-name occurrence. */
  function ParseUserInput(input: string): (r: Option<Parsed>)
    ensures r.None? <==> forall i: nat, e: nat :: !MatchAt(Lower(input), i, e)
    ensures r.Some? ==> exists i: nat, e: nat :: Chosen(Lower(input), i, e) && r.value == Groups(Lower(input), i, e)
  {
    var s := Lower(input);
    match Search(s)
    case None => None
    case Some((i, e)) => Some(Groups(s, i, e))
  }

  /** The command loop only plots when both parsed values are truthy
      (`if drug and dose`). */
  function PlottableCommand(input: string): (r: Option<Parsed>)
    ensures r.Some? <==> (ParseUserInput(input).Some? && ParseUserInput(input).value.drug != "" && ParseUserInput(input).value.dose != 0)
    ensures r.Some? ==> r == ParseUserInput(input) && r.value.dose >= 1
  {
    Truthy(ParseUserInput(input))
  }

  /** `if drug and dose`: an empty name and a zero dose are falsy. */
  function Truthy(p: Option<Parsed>): (r: Option<Parsed>)
    ensures r.Some? <==> (p.Some? && p.value.drug != "" && p.value.dose != 0)
    ensures r.Some? ==> r == p
  {
    if p.Some? && p.value.drug != "" && p.value.dose != 0 then p else None
  }

  // ---------------------------------------------------------------------------
  // Properties
  // ---------------------------------------------------------------------------

  /** At most one match is the chosen one. */
  lemma ChosenUnique(s: string, i: nat, e: nat, i': nat, e': nat)
    requires Chosen(s, i, e) && Chosen(s, i', e')
    ensures i == i' && e == e'
  {
  }

  /** Matching is done on `user_input.lower()`, so case never matters. */
  lemma ParseIgnoresCase(input: string)
    ensures ParseUserInput(input) == ParseUserInput(Lower(input))
  {
    LowerIdempotent(input);
  }

  lemma StripKeepsName(t: string)
    requires AllName(t)
    ensures AllName(Strip(t))
  {
    var a, b := StripSplit(t);
    var r := Strip(t);
    assert forall k :: 0 <= k < |r| ==> r[k] == t[|a| + k];
  }

  /** The drug is stripped name-class text: only `[a-z0-9 ]`, no space at
      either end (possibly empty); the dose is the value of a digit string. */
  lemma ParsedShape(input: string)
    requires ParseUserInput(input).Some?
    ensures AllName(ParseUserInput(input).value.drug)
    ensures var d := ParseUserInput(input).value.drug; d == [] || (d[0] != ' ' && d[|d| - 1] != ' ')
    ensures exists ds :: IsDigitString(ds) && ParseUserInput(input).value.dose == DecimalValue(ds)
  {
    var s := Lower(input);
    var i: nat, e: nat :| Chosen(s, i, e) && ParseUserInput(input).value == Groups(s, i, e);
    StripKeepsName(s[NameStart(s, i).value..e]);
    var ds := DoseDigits(s, e).value;
    assert IsDigitString(ds) && ParseUserInput(input).value.dose == DecimalValue(ds);
  }

  lemma InfixSlice(x: string, s: string, y: string, lo: nat, hi: nat)
    requires lo <= hi <= |s|
    ensures |x| + hi <= |x + s + y|
    ensures (x + s + y)[|x| + lo..|x| + hi] == s[lo..hi]
  {
  }

  lemma StartsWithInfix(x: string, s: string, y: string, i: nat, w: string)
    requires StartsWith(s, i, w)
    ensures StartsWith(x + s + y, |x| + i, w)
  {
    InfixSlice(x, s, y, i, i + |w|);
  }

  lemma NameStartInfix(x: string, s: string, y: string, i: nat)
    requires NameStart(s, i).Some?
    ensures NameStart(x + s + y, |x| + i) == Some(|x| + NameStart(s, i).value)
  {
    if StartsWith(s, i, "show me ") {
      StartsWithInfix(x, s, y, i, "show me ");
    } else {
      StartsWithInfix(x, s, y, i, "plot ");
      assert (x + s + y)[|x| + i] == s[i] == 'p';
    }
  }

  lemma TailAtInfix(x: string, s: string, y: string, e: nat, d: nat, w: nat)
    requires TailAt(s, e, d, w)
    ensures TailAt(x + s + y, |x| + e, |x| + d, |x| + w)
  {
    StartsWithInfix(x, s, y, e, " at ");
    StartsWithInfix(x, s, y, w, "mg");
    InfixSlice(x, s, y, e + 4, d);
    InfixSlice(x, s, y, d, w);
  }

  lemma TailInfix(x: string, s: string, y: string, e: nat)
    requires Tail(s, e)
    ensures Tail(x + s + y, |x| + e)
  {
    var d: nat, w: nat :| TailAt(s, e, d, w);
    TailAtInfix(x, s, y, e, d, w);
  }

  lemma MatchInfix(x: string, s: string, y: string, i: nat, e: nat)
    requires MatchAt(s, i, e)
    ensures MatchAt(x + s + y, |x| + i, |x| + e)
  {
    var p := NameStart(s, i).value;
    NameStartInfix(x, s, y, i);
    InfixSlice(x, s, y, p, e);
    TailInfix(x, s, y, e);
  }

  /** The search is unanchored: text before and after a command never turns
      a successful parse into a failure. */
  lemma ParseUnanchored(x: string, input: string, y: string)
    requires ParseUserInput(input).Some?
    ensures ParseUserInput(x + input + y).Some?
  {
    var s := Lower(input);
    var i: nat, e: nat :| MatchAt(s, i, e);
    MatchInfix(Lower(x), s, Lower(y), i, e);
    LowerConcat(x + input, y);
    LowerConcat(x, input);
  }

  /** The text after the name group in a well-formed command: only its second
      character is an `a`. */
  lemma CommandTailLetters(d: string, sp: string)
    requires AllDigits(d) && AllSpace(sp)
    ensures var t := CommandTail(d, sp);
      forall j :: 2 <= j < |t| ==> t[j] != 'a'
  {
    var t := CommandTail(d, sp);
    forall j | 2 <= j < |t|
      ensures t[j] != 'a'
    {
      if 4 <= j < 4 + |d| {
        assert t[j] == d[j - 4];
      } else if 4 + |d| <= j < 4 + |d| + |sp| {
        assert t[j] == sp[j - 4 - |d|];
      }
    }
  }

  /** The keyword part `(?:show me|plot) ` as written in a command. */
  predicate IsKeyword(kw: string) {
    kw == "show me" || kw == "plot"
  }

  /** A drug name the grammar gives back unchanged. */
  predicate IsCleanName(name: string) {
    |name| > 0 && AllName(name) && name[0] != ' ' && name[|name| - 1] != ' '
  }

  /** ` at <digits><spaces>mg` */
  function CommandTail(digits: string, sp: string): string {
    " at " + digits + sp + "mg"
  }

  lemma CommandIsLower(kw: string, name: string, digits: string, sp: string)
    requires IsKeyword(kw) && AllName(name) && AllDigits(digits) && AllSpace(sp)
    ensures NoUpper(kw + " " + name + CommandTail(digits, sp))
  {
    var t := CommandTail(digits, sp);
    assert NoUpper(t) by {
      forall j | 0 <= j < |t| ensures !IsUpper(t[j]) {
        if 4 <= j < 4 + |digits| {
          assert t[j] == digits[j - 4];
        } else if 4 + |digits| <= j < 4 + |digits| + |sp| {
          assert t[j] == sp[j - 4 - |digits|];
        }
      }
    }
    assert NoUpper(kw + " ");
    assert NoUpper(name);
    NoUpperConcat(kw + " ", name);
    NoUpperConcat(kw + " " + name, t);
  }

  /** The tail written out matches ` at (\d+)\s*mg` from its start. */
  lemma CommandTailMatches(digits: string, sp: string)
    requires IsDigitString(digits) && AllSpace(sp)
    ensures TailAt(CommandTail(digits, sp), 0, 4 + |digits|, 4 + |digits| + |sp|)
  {
    var t := CommandTail(digits, sp);
    var d0 := 4 + |digits|;
    var w0 := d0 + |sp|;
    assert t[..4] == " at ";
    assert t[4..d0] == digits;
    assert t[d0..w0] == sp;
    assert t[w0..w0 + 2] == "mg";
  }

  /** The keyword and its blank are read as `(?:show me|plot) `. */
  lemma KeywordStart(kw: string, name: string, tail: string)
    requires IsKeyword(kw)
    ensures NameStart(kw + " " + name + tail, 0) == Some(|kw| + 1)
    ensures (kw + " " + name + tail)[|kw| + 1..|kw| + 1 + |name|] == name
  {
    var s := kw + " " + name + tail;
    assert s[..|kw| + 1] == kw + " ";
    if kw == "plot" {
      assert s[0] == 'p';
      assert !StartsWith(s, 0, "show me ");
    }
  }

  /** The tail of a written-out command is read at the end of the name. */
  lemma CommandTailAt(head: string, digits: string, sp: string)
    requires IsDigitString(digits) && AllSpace(sp)
    ensures var s := head + CommandTail(digits, sp);
      var e0 := |head|;
      && TailAt(s, e0, e0 + 4 + |digits|, e0 + 4 + |digits| + |sp|)
      && s[e0 + 4..e0 + 4 + |digits|] == digits
  {
    var tail := CommandTail(digits, sp);
    CommandTailMatches(digits, sp);
    assert head + tail + [] == head + tail;
    TailAtInfix(head, tail, [], 0, 4 + |digits|, 4 + |digits| + |sp|);
    InfixSlice(head, tail, [], 4, 4 + |digits|);
    assert tail[4..4 + |digits|] == digits;
  }

  lemma CommandMatches(kw: string, name: string, digits: string, sp: string)
    requires IsKeyword(kw) && IsCleanName(name) && IsDigitString(digits) && AllSpace(sp)
    ensures var s := kw + " " + name + CommandTail(digits, sp);
      var e0 := |kw| + 1 + |name|;
      && MatchAt(s, 0, e0)
      && NameStart(s, 0) == Some(|kw| + 1)
      && s[|kw| + 1..e0] == name
      && TailAt(s, e0, e0 + 4 + |digits|, e0 + 4 + |digits| + |sp|)
      && s[e0 + 4..e0 + 4 + |digits|] == digits
  {
    KeywordStart(kw, name, CommandTail(digits, sp));
    CommandTailAt(kw + " " + name, digits, sp);
  }

  lemma CommandLongest(kw: string, name: string, digits: string, sp: string)
    requires IsKeyword(kw) && IsDigitString(digits) && AllSpace(sp)
    ensures var s := kw + " " + name + CommandTail(digits, sp);
      forall e': nat :: |kw| + 1 + |name| < e' ==> !Tail(s, e')
  {
    var tail := CommandTail(digits, sp);
    var s := kw + " " + name + tail;
    var e0 := |kw| + 1 + |name|;
    CommandTailLetters(digits, sp);
    assert forall k :: e0 <= k < |s| ==> s[k] == tail[k - e0];
    assert forall e': nat :: StartsWith(s, e', " at ") ==> s[e' + 1] == 'a' by {
      forall e': nat | StartsWith(s, e', " at ")
        ensures s[e' + 1] == 'a'
      {
        assert s[e'..e' + 4][1] == s[e' + 1];
      }
    }
  }

  lemma CommandChosen(kw: string, name: string, digits: string, sp: string)
    requires IsKeyword(kw) && IsCleanName(name) && IsDigitString(digits) && AllSpace(sp)
    ensures Chosen(kw + " " + name + CommandTail(digits, sp), 0, |kw| + 1 + |name|)
  {
    CommandMatches(kw, name, digits, sp);
    CommandLongest(kw, name, digits, sp);
  }

  lemma CommandGroups(kw: string, name: string, digits: string, sp: string)
    requires IsKeyword(kw) && IsCleanName(name) && IsDigitString(digits) && AllSpace(sp)
    ensures var s := kw + " " + name + CommandTail(digits, sp);
      MatchAt(s, 0, |kw| + 1 + |name|) &&
      Groups(s, 0, |kw| + 1 + |name|) == Parsed(name, DecimalValue(digits))
  {
    CommandMatches(kw, name, digits, sp);
    CommandDose(kw + " " + name, digits, sp);
    CleanNameStrips(name);
  }

  /** The dose group of a written-out tail is its digits. */
  lemma CommandDose(head: string, digits: string, sp: string)
    requires IsDigitString(digits) && AllSpace(sp)
    ensures DoseDigits(head + CommandTail(digits, sp), |head|) == Some(digits)
  {
    var s := head + CommandTail(digits, sp);
    var d := |head| + 4 + |digits|;
    CommandTailAt(head, digits, sp);
    assert TailAt(s, |head|, d, d + |sp|);
  }

  /** A clean name has nothing for `strip` to remove. */
  lemma CleanNameStrips(name: string)
    requires IsCleanName(name)
    ensures Strip(name) == name
  {
    assert [] + name + [] == name;
    StripCanonical([], name, []);
  }

  /** A command written out: `<keyword> <name> at <n><spaces>mg`. */
  function CommandLine(kw: string, name: string, n: nat, sp: string): string {
    kw + " " + name + " at " + NatToString(n) + sp + "mg"
  }

  /** Writing a command out and parsing it gives back its drug and dose,
      whatever the drug name contains (including ` at ` and digits). */
  lemma ParseRoundTrip(kw: string, name: string, n: nat, sp: string)
    requires IsKeyword(kw) && IsCleanName(name) && AllSpace(sp)
    ensures ParseUserInput(CommandLine(kw, name, n, sp)) == Some(Parsed(name, n))
  {
    var digits := NatToString(n);
    var s := kw + " " + name + CommandTail(digits, sp);
    assert kw + " " + name + " at " + digits + sp + "mg" == s;
    var e0 := |kw| + 1 + |name|;
    CommandIsLower(kw, name, digits, sp);
    LowerOfNoUpper(s);
    CommandChosen(kw, name, digits, sp);
    var found := Search(s).value;
    ChosenUnique(s, found.0, found.1, 0, e0);
    CommandGroups(kw, name, digits, sp);
    DecimalOfNatToString(n);
  }

  lemma ThreeDigits(h: nat)
    requires 1 <= h <= 9
    ensures NatToString(h * 100) == [DigitChar(h), '0', '0']
  {
    var t := h * 10;
    var u := t * 10;
    assert u == h * 100;
    assert t / 10 == h && t % 10 == 0;
    assert u / 10 == t && u % 10 == 0;
    assert NatToString(h) == [DigitChar(h)];
    assert NatToString(t) == NatToString(h) + [DigitChar(0)];
    assert NatToString(u) == NatToString(t) + [DigitChar(0)];
  }

  lemma MetforminCommand()
    ensures CommandLine("show me", "metformin", 500, " ") == "show me metformin at 500 mg"
    ensures IsCleanName("metformin")
  {
    ThreeDigits(5);
    assert NatToString(500) == "500";
    assert AllName("metformin");
    assert "show me" + " " + "metformin" == "show me metformin";
    assert "show me metformin" + " at " + "500" == "show me metformin at 500";
    assert "show me metformin at 500" + " " + "mg" == "show me metformin at 500 mg";
  }

  lemma WellbutrinCommand()
    ensures CommandLine("plot", "wellbutrin xl", 300, " ") == "plot wellbutrin xl at 300 mg"
    ensures IsCleanName("wellbutrin xl")
  {
    ThreeDigits(3);
    assert NatToString(300) == "300";
    assert AllName("wellbutrin xl");
    assert "plot" + " " + "wellbutrin xl" == "plot wellbutrin xl";
    assert "plot wellbutrin xl" + " at " + "300" == "plot wellbutrin xl at 300";
    assert "plot wellbutrin xl at 300" + " " + "mg" == "plot wellbutrin xl at 300 mg";
  }

  lemma PromptCommand()
    ensures CommandLine("show me", "wellbutrin xl", 300, " ") == "show me wellbutrin xl at 300 mg"
    ensures IsCleanName("wellbutrin xl")
  {
    ThreeDigits(3);
    assert NatToString(300) == "300";
    assert AllName("wellbutrin xl");
    assert "show me" + " " + "wellbutrin xl" == "show me wellbutrin xl";
    assert "show me wellbutrin xl" + " at " + "300" == "show me wellbutrin xl at 300";
    assert "show me wellbutrin xl at 300" + " " + "mg" == "show me wellbutrin xl at 300 mg";
  }

  /** The first command of the function's documentation. */
  lemma MetforminExample()
    ensures ParseUserInput("show me metformin at 500 mg") == Some(Parsed("metformin", 500))
  {
    MetforminCommand();
    ParseRoundTrip("show me", "metformin", 500, " ");
  }

  /** The second command of the function's documentation: a two-word name
      survives intact. */
  lemma WellbutrinExample()
    ensures ParseUserInput("plot wellbutrin xl at 300 mg") == Some(Parsed("wellbutrin xl", 300))
  {
    WellbutrinCommand();
    ParseRoundTrip("plot", "wellbutrin xl", 300, " ");
  }
}

=== FILE: parameters.dfy ===
/**
 * Where the pharmacokinetic parameter triple comes from.
 *
 * pk_graph_generator.py keeps one static table and raises for a name it does
 * not know; pk_graph_tool_ai.py takes the triple from a drug-information
 * lookup, falls back to a second static table and then to a generic default,
 * and bumps `Ka` when it equals `Ke` so that the formula's divisor is not zero.
 */
module Parameters {
  import opened Wrappers
  import opened Text

  /** Volume of distribution `vd` (L), absorption rate `ka` and elimination
      rate `ke` (1/h). */
  datatype Params = Params(vd: real, ka: real, ke: real)

  predicate Physical(p: Params) {
    p.vd > 0.0 && p.ka > 0.0 && p.ke > 0.0
  }

  /** The divisor `Vd * (Ka - Ke)` of the one-compartment formula is not zero. */
  predicate NonDegenerate(p: Params) {
    p.vd * (p.ka - p.ke) != 0.0
  }

  // ---------------------------------------------------------------------------
  // pk_graph_generator.py: one table, unknown names are an error
  // ---------------------------------------------------------------------------

  /** The generator's table, keyed by lower-case name. */
  const DrugTable: map<string, Params> := map[
    "metformin" := Params(100.0, 0.5, 0.0693),
    "wellbutrin xl" := Params(1750.0, 0.2, 0.033)
  ]

  /** The ValueError raised for a name missing from the table, carrying the
      normalised name it reports. */
  datatype LookupError = UnknownDrug(name: string)

  /** `drug.lower().strip()` */
  function NormalizeName(name: string): (r: string)
    ensures NoUpper(r) && Canonical(r)
  {
    var l := Lower(name);
    StripFrom(l);
    Strip(l)
  }

  /** Every entry is physical and has distinct rates. */
  lemma DrugTableWellFormed()
    ensures forall k :: k in DrugTable ==> Physical(DrugTable[k]) && DrugTable[k].ka != DrugTable[k].ke
  {
  }

  /** The table lookup at the start of `calculate_concentration`. */
  function LookupDrug(name: string): (r: Result<Params, LookupError>)
    ensures r.Ok? <==> NormalizeName(name) in DrugTable
    ensures r.Ok? ==> r.value == DrugTable[NormalizeName(name)]
    ensures r.Ok? ==> Physical(r.value) && NonDegenerate(r.value)
    ensures r.Err? ==> r.error == UnknownDrug(NormalizeName(name))
  {
    var key := NormalizeName(name);
    DrugTableWellFormed();
    if key in DrugTable then Ok(DrugTable[key]) else Err(UnknownDrug(key))
  }

  /** Names that differ only in letter case find the same entry (or none). */
  lemma LookupIgnoresCase(name: string)
    ensures LookupDrug(name) == LookupDrug(Lower(name))
  {
    LowerIdempotent(name);
  }

  /** Whitespace around a name never changes the lookup. */
  lemma LookupIgnoresPadding(a: string, name: string, b: string)
    requires AllSpace(a) && AllSpace(b)
    ensures LookupDrug(a + name + b) == LookupDrug(name)
  {
    LowerConcat(a + name, b);
    LowerConcat(a, name);
    LowerKeepsSpace(a);
    LowerKeepsSpace(b);
    StripPadded(Lower(a), Lower(name), Lower(b));
  }

  /** Normalising is idempotent, so a normalised name looks up like the raw one. */
  lemma NormalizeIdempotent(name: string)
    ensures NormalizeName(NormalizeName(name)) == NormalizeName(name)
    ensures LookupDrug(NormalizeName(name)) == LookupDrug(name)
  {
    var l := Lower(name);
    StripLowerCommute(l);
    LowerIdempotent(name);
    StripIdempotent(l);
  }

  // ---------------------------------------------------------------------------
  // pk_graph_tool_ai.py: lookup response, second table, default
  // ---------------------------------------------------------------------------

  /** `get_fallback_params`'s table. */
  const FallbackTable: map<string, Params> := map[
    "metformin" := Params(100.0, 0.5, 0.1),
    "wellbutrin xl" := Params(47.0, 0.4, 0.1)
  ]

  /** The triple used for a name in neither source; also the per-field
      defaults of a lookup response. */
  const DefaultParams: Params := Params(50.0, 0.3, 0.08)

  /** `get_fallback_params`: lower-cases (but does not strip) the name; never fails. */
  function FallbackParams(name: string): (r: Params)
    ensures Physical(r) && r.ka != r.ke
    ensures Lower(name) in FallbackTable ==> r == FallbackTable[Lower(name)]
    ensures Lower(name) !in FallbackTable ==> r == DefaultParams
  {
    var key := Lower(name);
    if key in FallbackTable then FallbackTable[key] else DefaultParams
  }

  const VdField: string := "volume_of_distribution"
  const KaField: string := "absorption_rate_constant"
  const KeField: string := "elimination_rate_constant"

  /** `data.get(key, default)` */
  function FieldOr(data: map<string, real>, key: string, default: real): real {
    if key in data then data[key] else default
  }

  /** The triple built from a lookup response: each field is taken from the
      response when present and from the default triple when absent. */
  function ParamsFromResponse(data: map<string, real>): (r: Params)
    ensures VdField in data ==> r.vd == data[VdField]
    ensures VdField !in data ==> r.vd == DefaultParams.vd
    ensures KaField in data ==> r.ka == data[KaField]
    ensures KaField !in data ==> r.ka == DefaultParams.ka
    ensures KeField in data ==> r.ke == data[KeField]
    ensures KeField !in data ==> r.ke == DefaultParams.ke
  {
    Params(FieldOr(data, VdField, 50.0), FieldOr(data, KaField, 0.3), FieldOr(data, KeField, 0.08))
  }

  /** Fields other than the three rate fields are ignored. */
  lemma ResponseIgnoresOtherFields(data: map<string, real>, key: string, v: real)
    requires key != VdField && key != KaField && key != KeField
    ensures ParamsFromResponse(data[key := v]) == ParamsFromResponse(data)
  {
  }

  /** An empty response gives the same triple as an unknown name in the
      fallback table. */
  lemma EmptyResponseIsDefault(name: string)
    requires Lower(name) !in FallbackTable
    ensures ParamsFromResponse(map[]) == FallbackParams(name) == DefaultParams
  {
  }

  /** `get_drug_params_from_drugbank`: `response` is the decoded reply of
      the lookup service, `None` when the request, the HTTP status or the
      decoding failed, in which case the fallback table answers. */
  function ResolveParams(name: string, response: Option<map<string, real>>): (r: Params)
    ensures response.None? ==> Physical(r) && r.ka != r.ke
    ensures response.None? ==> r == FallbackParams(name)
    ensures response.Some? ==> r == ParamsFromResponse(response.value)
  {
    match response
    case None => FallbackParams(name)
    case Some(data) => ParamsFromResponse(data)
  }

  // ---------------------------------------------------------------------------
  // The degenerate-rate guard of calculate_concentration
  // ---------------------------------------------------------------------------

  const RateBump: real := 0.001

  /** `if Ka == Ke: Ka += 0.001` */
  function Guard(p: Params): (r: Params)
    ensures r.ka != r.ke
    ensures r.vd == p.vd && r.ke == p.ke
    ensures p.ka == p.ke ==> r.ka == p.ka + RateBump
    ensures p.ka != p.ke ==> r == p
  {
    if p.ka == p.ke then p.(ka := p.ka + RateBump) else p
  }

  /** After the guard the divisor vanishes only when the volume is zero. */
  lemma GuardedDivisor(p: Params)
    ensures NonDegenerate(Guard(p)) <==> p.vd != 0.0
  {
    var g := Guard(p);
    assert g.ka - g.ke != 0.0;
    if p.vd != 0.0 {
      assert g.vd * (g.ka - g.ke) != 0.0;
    }
  }

  /** The guard changes nothing the second time. */
  lemma GuardIdempotent(p: Params)
    ensures Guard(Guard(p)) == Guard(p)
  {
  }

  /** A physical triple stays physical. */
  lemma GuardKeepsPhysical(p: Params)
    requires Physical(p)
    ensures Physical(Guard(p))
  {
  }

  /** The fallback path never needs the bump. */
  lemma FallbackNeverBumped(name: string)
    ensures Guard(ResolveParams(name, None)) == ResolveParams(name, None)
  {
  }

  // ---------------------------------------------------------------------------
  // The two files disagree
  // ---------------------------------------------------------------------------

  /** `metformin` is already in normal form. */
  lemma MetforminNormal()
    ensures Lower("metformin") == "metformin"
    ensures NormalizeName("metformin") == "metformin"
  {
    assert NoUpper("metformin");
    LowerOfNoUpper("metformin");
    assert [] + "metformin" + [] == "metformin";
    StripCanonical([], "metformin", []);
  }

  /** A leading blank survives the fallback's lower-casing. */
  lemma PaddedMetforminLower()
    ensures Lower(" metformin") == " metformin"
    ensures " metformin" == " " + "metformin" + []
  {
    assert NoUpper(" metformin");
    LowerOfNoUpper(" metformin");
  }

  /** For the same drug the two files use different triples, and only the
      generator strips surrounding whitespace from the name. */
  lemma TablesDisagree()
    ensures LookupDrug("metformin") == Ok(Params(100.0, 0.5, 0.0693))
    ensures FallbackParams("metformin") == Params(100.0, 0.5, 0.1)
    ensures LookupDrug(" metformin") == Ok(Params(100.0, 0.5, 0.0693))
    ensures FallbackParams(" metformin") == DefaultParams
  {
    MetforminNormal();
    assert "metformin" in DrugTable && "metformin" in FallbackTable;
    PaddedMetforminLower();
    assert " metformin" !in FallbackTable by {
      assert " metformin"[0] != "metformin"[0] && " metformin"[0] != "wellbutrin xl"[0];
    }
    LookupIgnoresPadding(" ", "metformin", []);
  }
}

=== FILE: response_extract.dfy ===
/**
 * How pk_graph_tool_ai.py turns the language service's reply into a record:
 * reject a blank reply, try to decode the whole text, and otherwise decode
 * the first flat `{...}` object found by the search `\{[^}]*\}`.
 *
 * JSON decoding itself is a parameter `decode`, an arbitrary partial
 * function: `None` stands for a `JSONDecodeError`.
 */
module ResponseExtract {
  import opened Wrappers
  import opened Text

  /** The language of `\{[^}]*\}`: a brace, anything but `}`, a closing brace. */
  predicate IsFlatObject(m: string) {
    && |m| >= 2
    && m[0] == '{'
    && m[|m| - 1] == '}'
    && forall k :: 0 <= k < |m| - 1 ==> m[k] != '}'
  }

  /** `m` occurs in `s` at index `i` and matches the pattern. */
  ghost predicate FlatObjectAt(s: string, i: nat, m: string) {
    i + |m| <= |s| && s[i..i + |m|] == m && IsFlatObject(m)
  }

  /** Index of the first `c` in `s` at or after `i`. */
  function FindFrom(s: string, c: char, i: nat): (r: Option<nat>)
    requires i <= |s|
    ensures r.Some? ==> i <= r.value < |s| && s[r.value] == c
    ensures r.Some? ==> forall k :: i <= k < r.value ==> s[k] != c
    ensures r.None? ==> forall k :: i <= k < |s| ==> s[k] != c
    decreases |s| - i
  {
    if i == |s| then None
    else if s[i] == c then Some(i)
    else FindFrom(s, c, i + 1)
  }

  /** At a given start at most one text matches: `[^}]*` cannot run past
      the first `}`, and the pattern must end on one. */
  lemma FlatObjectUnique(s: string, i: nat, m: string, m': string)
    requires FlatObjectAt(s, i, m) && FlatObjectAt(s, i, m')
    ensures m == m'
  {
    assert s[i + |m| - 1] == '}' && s[i + |m'| - 1] == '}';
    assert forall k :: i <= k < i + |m| - 1 ==> s[k] != '}' by {
      assert forall k :: i <= k < i + |m| - 1 ==> s[k] == m[k - i];
    }
    assert forall k :: i <= k < i + |m'| - 1 ==> s[k] != '}' by {
      assert forall k :: i <= k < i + |m'| - 1 ==> s[k] == m'[k - i];
    }
    assert |m| == |m'|;
  }

  /** Every match opens with `{` at its start and closes with `}` at its end. */
  lemma MatchEnds(s: string)
    ensures forall i: nat, m :: FlatObjectAt(s, i, m) ==> |m| >= 2 && s[i] == '{' && s[i + |m| - 1] == '}'
  {
    forall i: nat, m | FlatObjectAt(s, i, m)
      ensures s[i] == '{' && s[i + |m| - 1] == '}'
    {
      assert s[i] == m[0] && s[i + |m| - 1] == m[|m| - 1];
    }
  }

  /** A `{` followed by a `}` with no `}` in between bounds a match. */
  lemma BracesMatch(s: string, i: nat, j: nat)
    requires i < j < |s| && s[i] == '{' && s[j] == '}'
    requires forall k :: i + 1 <= k < j ==> s[k] != '}'
    ensures FlatObjectAt(s, i, s[i..j + 1])
  {
    var m := s[i..j + 1];
    assert forall k :: 0 <= k < |m| - 1 ==> m[k] == s[i + k];
  }

  /** `re.search(r'\{[^}]*\}', s)`: the match at the leftmost index where
      the pattern matches at all. */
  function ExtractObject(s: string): (r: Option<string>)
    ensures r.None? <==> forall i: nat, m :: !FlatObjectAt(s, i, m)
    ensures r.Some? ==> exists i: nat :: FlatObjectAt(s, i, r.value) && forall i': nat, m' :: FlatObjectAt(s, i', m') ==> i <= i'
  {
    MatchEnds(s);
    match FindFrom(s, '{', 0)
    case None => None
    case Some(i) =>
      match FindFrom(s, '}', i + 1)
      case None => None
      case Some(j) =>
        BracesMatch(s, i, j);
        Some(s[i..j + 1])
  }

  // ---------------------------------------------------------------------------
  // What the search promises about its result
  // ---------------------------------------------------------------------------

  /** A match starts at the first `{` of the reply and ends at the first `}`
      after it, so the text holds no other `}`. */
  lemma ExtractStartsAtFirstBrace(s: string)
    requires ExtractObject(s).Some?
    ensures var m := ExtractObject(s).value;
      exists i: nat :: FlatObjectAt(s, i, m) && (forall k :: 0 <= k < i ==> s[k] != '{')
        && (forall k :: i <= k < i + |m| - 1 ==> s[k] != '}')
  {
    var m := ExtractObject(s).value;
    var i: nat :| FlatObjectAt(s, i, m) && forall i': nat, m' :: FlatObjectAt(s, i', m') ==> i <= i';
    forall k | 0 <= k < i
      ensures s[k] != '{'
    {
      // a `{` before `i` would start an earlier match
      if s[k] == '{' {
        var e := EarlierMatch(s, k, i, m);
      }
    }
    MatchInside(s, i, m);
  }

  /** A `{` before a match starts a match of its own. */
  lemma EarlierMatch(s: string, k: nat, i: nat, m: string) returns (e: string)
    requires FlatObjectAt(s, i, m) && k < i && s[k] == '{'
    ensures FlatObjectAt(s, k, e)
  {
    MatchEnds(s);
    var f := FindFrom(s, '}', k + 1);
    assert f.Some? by {
      assert s[i + |m| - 1] == '}';
    }
    BracesMatch(s, k, f.value);
    e := s[k..f.value + 1];
  }

  /** A match has no `}` before its last character. */
  lemma MatchInside(s: string, i: nat, m: string)
    requires FlatObjectAt(s, i, m)
    ensures forall k :: i <= k < i + |m| - 1 ==> s[k] != '}'
  {
    assert forall k :: i <= k < i + |m| - 1 ==> s[k] == m[k - i];
  }

  /** A `}` after a `{` always yields a match. */
  lemma BracePairMatches(s: string, i: nat, j: nat)
    requires i < j < |s| && s[i] == '{' && s[j] == '}'
    ensures ExtractObject(s).Some?
  {
    BracesMatch(s, i, FindFrom(s, '}', i + 1).value);
  }

  /** There is no match exactly when no `}` follows any `{`. */
  lemma ExtractNoneIff(s: string)
    ensures ExtractObject(s).None? <==> forall i, j :: 0 <= i < j < |s| && s[i] == '{' ==> s[j] != '}'
  {
    forall i, j | 0 <= i < j < |s| && s[i] == '{' && s[j] == '}'
      ensures ExtractObject(s).Some?
    {
      BracePairMatches(s, i, j);
    }
    if ExtractObject(s).Some? {
      var m := ExtractObject(s).value;
      var i: nat :| FlatObjectAt(s, i, m);
      assert s[i] == m[0] && s[i + |m| - 1] == m[|m| - 1];
    }
  }

  /** A reply that is itself one flat object is returned unchanged. */
  lemma ExtractFlatIdentity(s: string)
    requires IsFlatObject(s)
    ensures ExtractObject(s) == Some(s)
  {
    assert FlatObjectAt(s, 0, s);
    var m := ExtractObject(s).value;
    var i: nat :| FlatObjectAt(s, i, m) && forall i': nat, m' :: FlatObjectAt(s, i', m') ==> i <= i';
    FlatObjectUnique(s, 0, m, s);
  }

  /** A flat object wrapped in prose without braces before it is recovered. */
  lemma ExtractFromNoise(prefix: string, obj: string, suffix: string)
    requires IsFlatObject(obj)
    requires forall k :: 0 <= k < |prefix| ==> prefix[k] != '{'
    ensures ExtractObject(prefix + obj + suffix) == Some(obj)
  {
    var s := prefix + obj + suffix;
    ObjectInfix(prefix, obj, suffix);
    var m := ExtractObject(s).value;
    var i: nat :| FlatObjectAt(s, i, m) && forall i': nat, m' :: FlatObjectAt(s, i', m') ==> i <= i';
    MatchEnds(s);
    assert i == |prefix|;
    FlatObjectUnique(s, i, m, obj);
  }

  lemma ObjectInfix(prefix: string, obj: string, suffix: string)
    requires IsFlatObject(obj)
    requires forall k :: 0 <= k < |prefix| ==> prefix[k] != '{'
    ensures var s := prefix + obj + suffix;
      FlatObjectAt(s, |prefix|, obj) && forall k :: 0 <= k < |prefix| ==> s[k] != '{'
  {
    var s := prefix + obj + suffix;
    assert s[|prefix|..|prefix| + |obj|] == obj;
    assert forall k :: 0 <= k < |prefix| ==> s[k] == prefix[k];
  }

  /** The record of the module's regex self-test. */
  const TestRecord: string := TestBody + "}"

  /** `{"drug": "metformin", "dosage": 500, "unit": "mg"`, the record without
      its closing brace, one field per piece. */
  const TestBody: string := "{\"drug\": \"metformin\", " + "\"dosage\": 500, " + "\"unit\": \"mg\""

  /** The self-test's first assertion: the search finds the whole record. */
  lemma TestRecordExtracted()
    ensures ExtractObject(TestRecord) == Some(TestRecord)
  {
    TestRecordIsFlat();
    ExtractFlatIdentity(TestRecord);
  }

  lemma TestRecordIsFlat()
    ensures IsFlatObject(TestRecord)
  {
    var m := TestRecord;
    assert forall k :: 0 <= k < |TestBody| ==> TestBody[k] != '}';
    assert m[..|m| - 1] == TestBody;
    assert forall k :: 0 <= k < |m| - 1 ==> m[k] == TestBody[k];
  }

  // ---------------------------------------------------------------------------
  // parse_input_with_grok after the service call
  // ---------------------------------------------------------------------------

  /** `not raw_response or raw_response.strip() == ""` */
  predicate IsBlank(reply: Option<string>) {
    reply.None? || Strip(reply.value) == ""
  }

  lemma BlankIffAllSpace(reply: Option<string>)
    ensures IsBlank(reply) <==> reply.None? || AllSpace(reply.value)
  {
    if reply.Some? {
      StripEmptyIffBlank(reply.value);
    }
  }

  /** The reply handling of `parse_input_with_grok`. `reply` is the message
      content, `None` when the call failed or carried no content; every
      failure becomes `None`, nothing is raised. */
  function ParseReply<J>(reply: Option<string>, decode: string -> Option<J>): (r: Option<J>)
    ensures reply.None? || AllSpace(reply.value) ==> r.None?
    ensures !IsBlank(reply) && decode(reply.value).Some? ==> r == decode(reply.value)
    ensures !IsBlank(reply) && decode(reply.value).None? ==>
      r == (match ExtractObject(reply.value) case Some(m) => decode(m) case None => None)
  {
    BlankIffAllSpace(reply);
    if IsBlank(reply) then None
    else
      var raw := reply.value;
      match decode(raw)
      case Some(v) => Some(v)
      case None =>
        match ExtractObject(raw)
        case Some(m) => decode(m)
        case None => None
  }

  /** Whatever the reply handler returns is the decoding of a piece of the
      reply: all of it, or the extracted object. */
  lemma ReplyDecodesPartOfReply<J>(reply: Option<string>, decode: string -> Option<J>)
    requires ParseReply(reply, decode).Some?
    ensures reply.Some?
    ensures exists i: nat, j: nat :: i <= j <= |reply.value| && decode(reply.value[i..j]) == ParseReply(reply, decode)
  {
    var raw := reply.value;
    if decode(raw).Some? {
      assert raw[0..|raw|] == raw;
    } else {
      var m := ExtractObject(raw).value;
      var i: nat :| FlatObjectAt(raw, i, m);
      assert raw[i..i + |m|] == m;
    }
  }

  /** A blank reply is rejected before any decoding: the decoder is never
      consulted. */
  lemma BlankReplyIgnoresDecoder<J>(reply: Option<string>, d1: string -> Option<J>, d2: string -> Option<J>)
    requires IsBlank(reply)
    ensures ParseReply(reply, d1) == ParseReply(reply, d2) == None
  {
  }

  /** A reply that does not decode as a whole but wraps a flat object in
      brace-free prose yields that object's decoding. */
  lemma ReplyRecoversWrappedObject<J>(prefix: string, obj: string, suffix: string, decode: string -> Option<J>)
    requires IsFlatObject(obj)
    requires forall k :: 0 <= k < |prefix| ==> prefix[k] != '{'
    requires decode(prefix + obj + suffix).None?
    ensures ParseReply(Some(prefix + obj + suffix), decode) == decode(obj)
  {
    var s := prefix + obj + suffix;
    ExtractFromNoise(prefix, obj, suffix);
    assert s[|prefix|] == '{';
    StripEmptyIffBlank(s);
  }
}

=== FILE: session.dfy ===
/**
 * One turn of each file's command loop: read a line, stop on `quit`,
 * otherwise parse it and draw a figure or report an error.
 *
 * Everything the loops obtain from outside (the language service's reply,
 * the lookup service's response, `numpy.exp`) is a parameter of the turn.
 */
module Session {
  import opened Wrappers
  import opened Text
  import opened CommandGrammar
  import opened TokenCommand
  import opened ResponseExtract
  import opened Parameters
  import opened Chart

  /** Upper- and lower-case `quit` both end either loop. */
  lemma QuitInAnyCase(exp: real -> real)
    ensures GeneratorStep("quit", exp) == GeneratorQuit
    ensures GeneratorStep("QUIT", exp) == GeneratorQuit
    ensures GeneratorStep("Quit", exp) == GeneratorQuit
    ensures !IsQuit("quit ") && !IsQuit("exit")
  {
    assert IsQuit("Quit") by {
      var s := "Quit";
      assert s[0] == "QUIT"[0] && s[1] == "quit"[1] && s[2] == "quit"[2] && s[3] == "quit"[3];
    }
    assert "exit"[0] != "quit"[0] && "exit"[0] != "QUIT"[0];
  }

  /** `user_input.lower() == "quit"`: only a four-letter line spelling
      `quit` in any mix of cases ends the loop. */
  function IsQuit(input: string): (r: bool)
    ensures r <==> |input| == 4 && forall k :: 0 <= k < 4 ==> input[k] == "quit"[k] || input[k] == "QUIT"[k]
  {
    var l := Lower(input);
    assert forall k :: 0 <= k < |input| ==> l[k] == LowerChar(input[k]);
    assert |input| == 4 ==> (l == "quit" <==> forall k :: 0 <= k < 4 ==> l[k] == "quit"[k]);
    l == "quit"
  }

  // ---------------------------------------------------------------------------
  // pk_graph_generator.py
  // ---------------------------------------------------------------------------

  datatype GeneratorOutcome =
    | GeneratorQuit
    | GeneratorUnparsed                   // "Could not parse input. Please try again."
    | GeneratorPlotted(figure: Figure)
    | GeneratorFailed(error: LookupError)  // "Error generating graph: ..."

  /** One turn of the generator's loop. */
  function GeneratorStep(input: string, exp: real -> real): (r: GeneratorOutcome)
    ensures r.GeneratorQuit? <==> IsQuit(input)
    ensures !IsQuit(input) ==> (r.GeneratorUnparsed? <==> PlottableCommand(input).None?)
    ensures r.GeneratorPlotted? || r.GeneratorFailed? ==> PlottableCommand(input).Some?
    ensures r.GeneratorPlotted? ==> var c := PlottableCommand(input).value;
      GeneratorFigure(c.drug, c.dose, exp) == Ok(r.figure)
    ensures r.GeneratorFailed? ==> var c := PlottableCommand(input).value;
      GeneratorFigure(c.drug, c.dose, exp) == Err(r.error)
  {
    if IsQuit(input) then GeneratorQuit
    else
      var command := PlottableCommand(input);
      if command.None? then GeneratorUnparsed
      else
        var c := command.value;
        match GeneratorFigure(c.drug, c.dose, exp)
        case Ok(f) => GeneratorPlotted(f)
        case Err(e) => GeneratorFailed(e)
  }

  /** A name the grammar gives back is already normalised. */
  lemma CleanNameIsNormal(name: string)
    requires IsCleanName(name)
    ensures NormalizeName(name) == name
  {
    assert NoUpper(name) by {
      forall k | 0 <= k < |name| ensures !IsUpper(name[k]) {
        assert IsNameChar(name[k]);
      }
    }
    LowerOfNoUpper(name);
    assert IsNameChar(name[0]) && IsNameChar(name[|name| - 1]);
    assert [] + name + [] == name;
    StripCanonical([], name, []);
  }

  /** A well-formed command draws the named drug's curve when the table
      knows it and reports the name otherwise. */
  lemma GeneratorCommand(kw: string, name: string, n: nat, sp: string, exp: real -> real)
    requires IsKeyword(kw) && IsCleanName(name) && AllSpace(sp) && n >= 1
    ensures var r := GeneratorStep(CommandLine(kw, name, n, sp), exp);
      && (name in DrugTable ==> r.GeneratorPlotted? && PlotsCurve(r.figure, name, n, DrugTable[name], exp))
      && (name !in DrugTable ==> r == GeneratorFailed(UnknownDrug(name)))
  {
    PlottableOfCommand(kw, name, n, sp);
    StepOfPlottable(CommandLine(kw, name, n, sp), Parsed(name, n), exp);
    FigureOfCleanName(name, n, exp);
  }

  /** A plottable line draws the figure of its command. */
  lemma StepOfPlottable(input: string, c: Parsed, exp: real -> real)
    requires !IsQuit(input) && PlottableCommand(input) == Some(c)
    ensures GeneratorStep(input, exp) ==
      (match GeneratorFigure(c.drug, c.dose, exp) case Ok(f) => GeneratorPlotted(f) case Err(e) => GeneratorFailed(e))
  {
  }

  /** A name the grammar gives back finds its table entry as it is. */
  lemma FigureOfCleanName(name: string, n: nat, exp: real -> real)
    requires IsCleanName(name)
    ensures name in DrugTable ==> GeneratorFigure(name, n, exp).Ok? && PlotsCurve(GeneratorFigure(name, n, exp).value, name, n, DrugTable[name], exp)
    ensures name !in DrugTable ==> GeneratorFigure(name, n, exp) == Err(UnknownDrug(name))
  {
    CleanNameIsNormal(name);
  }

  lemma PlottableOfCommand(kw: string, name: string, n: nat, sp: string)
    requires IsKeyword(kw) && IsCleanName(name) && AllSpace(sp) && n >= 1
    ensures var input := CommandLine(kw, name, n, sp);
      !IsQuit(input) && PlottableCommand(input) == Some(Parsed(name, n))
  {
    var input := CommandLine(kw, name, n, sp);
    ParseRoundTrip(kw, name, n, sp);
  }

  /** The generator never draws a zero dose or an empty name. */
  lemma GeneratorPlotsPositiveDoses(input: string, exp: real -> real)
    requires GeneratorStep(input, exp).GeneratorPlotted?
    ensures exists d: string, n: nat :: d != "" && n >= 1 && GeneratorStep(input, exp).figure.layout.title == Title(d, n)
  {
    var c := PlottableCommand(input).value;
    assert GeneratorStep(input, exp).figure.layout.title == Title(c.drug, c.dose);
  }

  /** The example of the loop's prompt draws the wellbutrin xl curve. */
  lemma GeneratorPromptExample(exp: real -> real)
    ensures GeneratorStep("show me wellbutrin xl at 300 mg", exp).GeneratorPlotted?
    ensures GeneratorStep("show me wellbutrin xl at 300 mg", exp).figure.layout.title == Title("wellbutrin xl", 300)
  {
    PromptCommand();
    GeneratorCommand("show me", "wellbutrin xl", 300, " ", exp);
  }

  /** The first command of the parser's documentation draws the metformin curve. */
  lemma GeneratorMetformin(exp: real -> real)
    ensures GeneratorStep("show me metformin at 500 mg", exp).GeneratorPlotted?
    ensures GeneratorStep("show me metformin at 500 mg", exp).figure.layout.title == Title("metformin", 500)
  {
    MetforminCommand();
    GeneratorCommand("show me", "metformin", 500, " ", exp);
  }

  // ---------------------------------------------------------------------------
  // pk_graph_tool_ai.py
  // ---------------------------------------------------------------------------

  /** Where the loop's record came from. */
  datatype Source<J> = FromService(record: J) | FromTokens(command: Command)

  /** `parsed_data = parse_input_with_grok(...)` followed by the hand-written
      parser when that is falsy; `truthy` is Python's truth value of a
      decoded record. */
  function Interpret<J>(input: string, reply: Option<string>, decode: string -> Option<J>, truthy: J -> bool): (r: Result<Source<J>, TokenError>)
    ensures r.Ok? && r.value.FromService? <==> ParseReply(reply, decode).Some? && truthy(ParseReply(reply, decode).value)
    ensures r.Ok? && r.value.FromService? ==> Some(r.value.record) == ParseReply(reply, decode)
    ensures r.Ok? && r.value.FromTokens? ==> ParseTokens(input) == Ok(r.value.command)
    ensures r.Err? ==> ParseTokens(input) == Err(r.error)
  {
    var parsed := ParseReply(reply, decode);
    if parsed.Some? && truthy(parsed.value) then Ok(FromService(parsed.value))
    else
      match ParseTokens(input)
      case Ok(c) => Ok(FromTokens(c))
      case Err(e) => Err(e)
  }

  /** The service's answer, when usable, wins whatever the line says. */
  lemma ServiceWins<J>(input1: string, input2: string, reply: Option<string>, decode: string -> Option<J>, truthy: J -> bool)
    requires ParseReply(reply, decode).Some? && truthy(ParseReply(reply, decode).value)
    ensures Interpret(input1, reply, decode, truthy) == Interpret(input2, reply, decode, truthy)
    ensures Interpret(input1, reply, decode, truthy).Ok? && Interpret(input1, reply, decode, truthy).value.FromService?
  {
  }

  /** A blank reply sends the line to the hand-written parser, whatever the
      decoder would have made of it. */
  lemma BlankReplyFallsBack<J>(input: string, reply: Option<string>, decode: string -> Option<J>, truthy: J -> bool)
    requires IsBlank(reply)
    ensures Interpret(input, reply, decode, truthy) ==
      (match ParseTokens(input) case Ok(c) => Ok(FromTokens(c)) case Err(e) => Err(e))
  {
    BlankReplyIgnoresDecoder(reply, decode, decode);
  }

  datatype ToolError =
    | Unreadable(cause: TokenError)  // no usable reply and the line does not parse
    | BadRecord                      // the reply's record lacks a usable `drug` or `dosage`
    | NoCurve(reason: ChartError)    // the concentration could not be computed

  datatype ToolOutcome = ToolQuit | ToolFailed(error: ToolError) | ToolPlotted(figure: Figure)

  /** One turn of the tool's loop. `fields` reads `drug` and `dosage` from a
      service record (`None` for a missing key or unusable value); `lookup`
      answers the lookup service's request for a drug name. */
  function ToolStep<J>(input: string, reply: Option<string>, decode: string -> Option<J>, truthy: J -> bool,
                       fields: J -> Option<(string, nat)>, lookup: string -> Option<map<string, real>>,
                       exp: real -> real): (r: ToolOutcome)
    ensures r.ToolQuit? <==> IsQuit(input)
    ensures r.ToolFailed? && r.error.Unreadable? ==> Interpret(input, reply, decode, truthy) == Err(r.error.cause)
    ensures r.ToolFailed? && r.error.NoCurve? ==> exists d: string, n: nat :: lookup(d).Some? && ToolFigure(d, n, lookup(d), exp).Err?
    ensures r.ToolPlotted? ==> exists d: string, n: nat :: ToolFigure(d, n, lookup(d), exp) == Ok(r.figure)
    ensures var i := Interpret(input, reply, decode, truthy);
      !IsQuit(input) && i.Err? ==> r == ToolFailed(Unreadable(i.error))
    ensures var i := Interpret(input, reply, decode, truthy);
      !IsQuit(input) && i.Ok? && i.value.FromTokens? ==> r == Draw(i.value.command.drug, i.value.command.dosage, lookup, exp)
    ensures var i := Interpret(input, reply, decode, truthy);
      !IsQuit(input) && i.Ok? && i.value.FromService? ==> (r == ToolFailed(BadRecord) <==> fields(i.value.record).None?)
    ensures var i := Interpret(input, reply, decode, truthy);
      !IsQuit(input) && i.Ok? && i.value.FromService? && fields(i.value.record).Some? ==>
        var (d, n) := fields(i.value.record).value; r == Draw(d, n, lookup, exp)
  {
    if IsQuit(input) then ToolQuit
    else Respond(Interpret(input, reply, decode, truthy), fields, lookup, exp)
  }

  /** The body of the loop's `try` once the record's source is known. */
  function Respond<J>(i: Result<Source<J>, TokenError>, fields: J -> Option<(string, nat)>,
                      lookup: string -> Option<map<string, real>>, exp: real -> real): (r: ToolOutcome)
    ensures !r.ToolQuit?
    ensures i.Err? <==> r.ToolFailed? && r.error.Unreadable?
    ensures i.Err? ==> r == ToolFailed(Unreadable(i.error))
    ensures i.Ok? && i.value.FromTokens? ==> r == Draw(i.value.command.drug, i.value.command.dosage, lookup, exp)
    ensures i.Ok? && i.value.FromService? ==> r == DrawRecord(i.value.record, fields, lookup, exp)
    ensures r.ToolFailed? && r.error.NoCurve? ==> exists d: string, n: nat :: lookup(d).Some? && ToolFigure(d, n, lookup(d), exp).Err?
    ensures r.ToolPlotted? ==> exists d: string, n: nat :: ToolFigure(d, n, lookup(d), exp) == Ok(r.figure)
  {
    match i
    case Err(e) => ToolFailed(Unreadable(e))
    case Ok(FromTokens(c)) => Draw(c.drug, c.dosage, lookup, exp)
    case Ok(FromService(j)) => DrawRecord(j, fields, lookup, exp)
  }

  /** `drug = parsed_data["drug"]`, `dose = parsed_data["dosage"]`, then
      `plot_graph(drug, dose)`. */
  function DrawRecord<J>(j: J, fields: J -> Option<(string, nat)>, lookup: string -> Option<map<string, real>>,
                         exp: real -> real): (r: ToolOutcome)
    ensures r == ToolFailed(BadRecord) <==> fields(j).None?
    ensures fields(j).Some? ==> var (d, n) := fields(j).value; r == Draw(d, n, lookup, exp)
  {
    match fields(j)
    case None => ToolFailed(BadRecord)
    case Some((d, n)) => Draw(d, n, lookup, exp)
  }

  /** `plot_graph(drug, dose)` inside the loop's error handler. */
  function Draw(drug: string, dose: nat, lookup: string -> Option<map<string, real>>, exp: real -> real): (r: ToolOutcome)
    ensures r.ToolPlotted? || r == ToolFailed(NoCurve(ZeroVolume))
    ensures r.ToolPlotted? <==> ToolFigure(drug, dose, lookup(drug), exp).Ok?
    ensures r.ToolPlotted? ==> r.figure == ToolFigure(drug, dose, lookup(drug), exp).value
  {
    match ToolFigure(drug, dose, lookup(drug), exp)
    case Ok(f) => ToolPlotted(f)
    case Err(e) => ToolFailed(NoCurve(e))
  }

  /** With both services silent, a `show me ... at ...` line is drawn from
      the fallback table with the drug words and dose it spells out. */
  lemma ToolOffline<J>(words: seq<string>, n: nat, decode: string -> Option<J>, truthy: J -> bool,
                       fields: J -> Option<(string, nat)>, lookup: string -> Option<map<string, real>>, exp: real -> real)
    requires PlainWords(words) && lookup(JoinSpace(words)).None?
    ensures var r := ToolStep(JoinSpace(CommandTokens(words, n)), None, decode, truthy, fields, lookup, exp);
      r.ToolPlotted? && PlotsCurve(r.figure, JoinSpace(words), n, FallbackParams(JoinSpace(words)), exp)
  {
    var input := JoinSpace(CommandTokens(words, n));
    OfflineInterpret(words, n, decode, truthy);
    assert ToolStep(input, None, decode, truthy, fields, lookup, exp) == Draw(JoinSpace(words), n, lookup, exp);
    ToolFallbackAlwaysPlots(JoinSpace(words), n, exp);
  }

  /** Without a reply a written-out token command reaches the token parser. */
  lemma OfflineInterpret<J>(words: seq<string>, n: nat, decode: string -> Option<J>, truthy: J -> bool)
    requires PlainWords(words)
    ensures var input := JoinSpace(CommandTokens(words, n));
      && !IsQuit(input)
      && Interpret(input, None, decode, truthy) == Ok(FromTokens(Command(JoinSpace(words), n, "mg")))
  {
    var input := JoinSpace(CommandTokens(words, n));
    ParseTokensRoundTrip(words, n);
    CommandTokensShape(words, n);
    JoinSpaceHead(CommandTokens(words, n));
    BlankReplyFallsBack(input, None, decode, truthy);
  }

  /** A line of two or more tokens is at least as long as its first two
      tokens and the blank between them. */
  lemma JoinSpaceHead(ts: seq<string>)
    requires |ts| >= 2
    ensures |JoinSpace(ts)| >= |ts[0]| + 1 + |ts[1]|
  {
    var rest := ts[1..];
    assert rest[0] == ts[1];
    assert |JoinSpace(rest)| >= |rest[0]|;
  }
}

=== FILE: text.dfy ===
/**
 * The ASCII fragment of the Python string operations the core relies on:
 * `str.lower`, `str.strip`, `str.split`, `" ".join`, `str.isdigit`, `int`
 * on a digit string, `str(n)` and `str.replace(pat, "")`.
 */
module Text {

  // ---------------------------------------------------------------------------
  // Character classes
  // ---------------------------------------------------------------------------

  /** Python's `str.isspace` on ASCII: space, tab through carriage return,
      and the four information separators 0x1C..0x1F. The regex class `\s`
      and argument-less `str.split`/`str.strip` use the same set. */
  predicate IsSpace(c: char) {
    c == ' ' || ('\t' <= c <= '\r') || ('\U{1C}' <= c <= '\U{1F}')
  }

  predicate IsDigit(c: char) {
    '0' <= c <= '9'
  }

  predicate IsUpper(c: char) {
    'A' <= c <= 'Z'
  }

  predicate AllSpace(s: string) {
    forall i :: 0 <= i < |s| ==> IsSpace(s[i])
  }

  predicate AllDigits(s: string) {
    forall i :: 0 <= i < |s| ==> IsDigit(s[i])
  }

  predicate NoSpace(s: string) {
    forall i :: 0 <= i < |s| ==> !IsSpace(s[i])
  }

  predicate NoUpper(s: string) {
    forall i :: 0 <= i < |s| ==> !IsUpper(s[i])
  }

  /** Python's `str.isdigit` on ASCII: non-empty and only decimal digits. */
  predicate IsDigitString(s: string) {
    |s| > 0 && AllDigits(s)
  }

  // ---------------------------------------------------------------------------
  // Lower-casing
  // ---------------------------------------------------------------------------

  function LowerChar(c: char): char {
    if IsUpper(c) then (c as int + 32) as char else c
  }

  /** `str.lower()` on ASCII: only 'A'..'Z' change. */
  function Lower(s: string): (r: string)
    ensures |r| == |s| && NoUpper(r)
    ensures forall i :: 0 <= i < |s| ==> r[i] == s[i] || (IsUpper(s[i]) && r[i] as int == s[i] as int + 32)
  {
    seq(|s|, i requires 0 <= i < |s| => LowerChar(s[i]))
  }

  lemma LowerOfNoUpper(s: string)
    requires NoUpper(s)
    ensures Lower(s) == s
  {
  }

  lemma LowerIdempotent(s: string)
    ensures Lower(Lower(s)) == Lower(s)
  {
  }

  lemma LowerConcat(a: string, b: string)
    ensures Lower(a + b) == Lower(a) + Lower(b)
  {
  }

  lemma NoUpperConcat(a: string, b: string)
    requires NoUpper(a) && NoUpper(b)
    ensures NoUpper(a + b)
  {
  }

  lemma LowerKeepsSpace(s: string)
    ensures forall i :: 0 <= i < |s| ==> (IsSpace(Lower(s)[i]) <==> IsSpace(s[i]))
  {
  }

  // ---------------------------------------------------------------------------
  // Stripping surrounding whitespace
  // ---------------------------------------------------------------------------

  /** Neither empty-with-padding nor padded: the shape `str.strip` produces. */
  predicate Canonical(r: string) {
    r == [] || (!IsSpace(r[0]) && !IsSpace(r[|r| - 1]))
  }

  /** The index of the first non-whitespace character at or after `i`
      (`|s|` if there is none): where `str.lstrip()` cuts. */
  function LeadEnd(s: string, i: nat): (r: nat)
    requires i <= |s|
    ensures i <= r <= |s|
    ensures forall k :: i <= k < r ==> IsSpace(s[k])
    ensures r == |s| || !IsSpace(s[r])
    decreases |s| - i
  {
    if i < |s| && IsSpace(s[i]) then LeadEnd(s, i + 1) else i
  }

  /** The index after the last non-whitespace character of `s[lo..j]`
      (`lo` if there is none): where `str.rstrip()` cuts. */
  function TrailStart(s: string, lo: nat, j: nat): (r: nat)
    requires lo <= j <= |s|
    ensures lo <= r <= j
    ensures forall k :: r <= k < j ==> IsSpace(s[k])
    ensures r == lo || !IsSpace(s[r - 1])
    decreases j - lo
  {
    if lo < j && IsSpace(s[j - 1]) then TrailStart(s, lo, j - 1) else j
  }

  /** `str.strip()`: `s` is the result wrapped in whitespace on both sides. */
  function Strip(s: string): (r: string)
    ensures Canonical(r)
    ensures var i := LeadEnd(s, 0);
      i + |r| <= |s| && r == s[i..i + |r|] && AllSpace(s[..i]) && AllSpace(s[i + |r|..])
  {
    var i := LeadEnd(s, 0);
    var j := TrailStart(s, i, |s|);
    assert j > i ==> !IsSpace(s[i]);
    s[i..j]
  }

  /** Whatever whitespace surrounds a canonical string, `strip` recovers exactly it. */
  lemma StripCanonical(a: string, r: string, b: string)
    requires AllSpace(a) && AllSpace(b) && Canonical(r)
    ensures Strip(a + r + b) == r
  {
    var s := a + r + b;
    assert forall k :: 0 <= k < |a| ==> s[k] == a[k];
    assert forall k :: |a| + |r| <= k < |s| ==> s[k] == b[k - |a| - |r|];
    if r == [] {
      assert LeadEnd(s, 0) == |s|;
    } else {
      assert s[|a|] == r[0] && s[|a| + |r| - 1] == r[|r| - 1];
      assert LeadEnd(s, 0) == |a|;
      assert TrailStart(s, |a|, |s|) == |a| + |r|;
      assert s[|a|..|a| + |r|] == r;
    }
  }

  /** Surrounding whitespace never changes the result of `strip`. */
  lemma StripPadded(a: string, m: string, b: string)
    requires AllSpace(a) && AllSpace(b)
    ensures Strip(a + m + b) == Strip(m)
  {
    var r := Strip(m);
    var a', b' := StripSplit(m);
    AllSpaceConcat(a, a');
    AllSpaceConcat(b', b);
    Regroup(a, a', r, b', b);
    StripCanonical(a + a', r, b' + b);
  }

  lemma Regroup(a: string, a': string, r: string, b': string, b: string)
    ensures a + (a' + r + b') + b == (a + a') + r + (b' + b)
  {
  }

  lemma AllSpaceConcat(x: string, y: string)
    requires AllSpace(x) && AllSpace(y)
    ensures AllSpace(x + y)
  {
  }

  /** The whitespace `strip` removes on either side. */
  lemma StripSplit(s: string) returns (a: string, b: string)
    ensures s == a + Strip(s) + b && AllSpace(a) && AllSpace(b)
  {
    var r := Strip(s);
    var i := LeadEnd(s, 0);
    a := s[..i];
    b := s[i + |r|..];
    ThreeSlices(s, i, i + |r|);
  }

  lemma ThreeSlices(s: string, i: nat, j: nat)
    requires i <= j <= |s|
    ensures s == s[..i] + s[i..j] + s[j..]
  {
  }

  /** `strip` adds no character. */
  lemma StripFrom(s: string)
    ensures forall k :: 0 <= k < |Strip(s)| ==> Strip(s)[k] in s
  {
    var i, r := LeadEnd(s, 0), Strip(s);
    assert forall k :: 0 <= k < |r| ==> r[k] == s[i + k];
  }

  /** `strip` deletes only whitespace: every other character is kept. */
  lemma StripKeeps(s: string)
    ensures forall k :: 0 <= k < |s| && !IsSpace(s[k]) ==> s[k] in Strip(s)
  {
    var i, r := LeadEnd(s, 0), Strip(s);
    assert forall k :: i + |r| <= k < |s| ==> s[k] == s[i + |r|..][k - i - |r|];
    assert forall k :: i <= k < i + |r| ==> s[k] == r[k - i];
  }

  lemma StripIdempotent(s: string)
    ensures Strip(Strip(s)) == Strip(s)
  {
    assert [] + Strip(s) + [] == Strip(s);
    StripCanonical([], Strip(s), []);
  }

  lemma StripEmptyIffBlank(s: string)
    ensures Strip(s) == [] <==> AllSpace(s)
  {
    if AllSpace(s) {
      assert s + [] + [] == s;
      StripCanonical(s, [], []);
    }
  }

  /** Lower-casing and stripping commute: `s.lower().strip() == s.strip().lower()`. */
  lemma StripLowerCommute(s: string)
    ensures Strip(Lower(s)) == Lower(Strip(s))
  {
    var r := Strip(s);
    var a, b := StripSplit(s);
    LowerConcat(a + r, b);
    LowerConcat(a, r);
    LowerKeepsSpace(a);
    LowerKeepsSpace(b);
    LowerKeepsSpace(r);
    StripCanonical(Lower(a), Lower(r), Lower(b));
  }

  // ---------------------------------------------------------------------------
  // Splitting on whitespace and joining with single spaces
  // ---------------------------------------------------------------------------

  /** A token `str.split()` can produce: non-empty, no whitespace. */
  predicate IsWord(w: string) {
    |w| > 0 && NoSpace(w)
  }

  /** End of the run of non-whitespace characters that starts at `i`. */
  function WordEnd(s: string, i: nat): (j: nat)
    requires i <= |s|
    ensures i <= j <= |s| && NoSpace(s[i..j])
    ensures j == |s| || IsSpace(s[j])
    decreases |s| - i
  {
    if i < |s| && !IsSpace(s[i]) then WordEnd(s, i + 1) else i
  }

  /** `str.split()` with no separator: the maximal whitespace-free runs, in order. */
  function Split(s: string): (r: seq<string>)
    ensures forall k :: 0 <= k < |r| ==> IsWord(r[k])
    ensures r == [] <==> AllSpace(s)
    ensures NoUpper(s) ==> forall k :: 0 <= k < |r| ==> NoUpper(r[k])
    decreases |s|
  {
    if |s| == 0 then []
    else if IsSpace(s[0]) then
      assert forall k :: 1 <= k < |s| ==> s[k] == s[1..][k - 1];
      Split(s[1..])
    else
      var j := WordEnd(s, 0);
      assert forall k :: 0 <= k < j ==> s[..j][k] == s[k];
      assert forall k :: j <= k < |s| ==> s[j..][k - j] == s[k];
      [s[..j]] + Split(s[j..])
  }

  /** Whitespace before a line never adds a token. With `SplitWordThen`
      this pins `Split` down on every string. */
  lemma {:induction false} SplitSpaceThen(a: string, x: string)
    requires AllSpace(a)
    ensures Split(a + x) == Split(x)
    decreases |a|
  {
    if |a| > 0 {
      var s := a + x;
      assert s[0] == a[0] && s[1..] == a[1..] + x;
      assert Split(s) == Split(s[1..]);
      assert AllSpace(a[1..]) by {
        assert forall k :: 0 <= k < |a| - 1 ==> a[1..][k] == a[k + 1];
      }
      SplitSpaceThen(a[1..], x);
    } else {
      assert a + x == x;
    }
  }

  /** `" ".join(ts)`: with `SplitJoin`, the length and the blank-only
      whitespace fix the joined string exactly. */
  function JoinSpace(ts: seq<string>): (r: string)
    ensures AllWords(ts) ==> (r == [] <==> ts == []) && Canonical(r)
    ensures |ts| > 0 ==> |r| == TotalLength(ts) + |ts| - 1
    ensures AllWords(ts) ==> forall k :: 0 <= k < |r| && IsSpace(r[k]) ==> r[k] == ' '
    decreases |ts|
  {
    if |ts| == 0 then ""
    else if |ts| == 1 then
      assert AllWords(ts) ==> IsWord(ts[0]);
      ts[0]
    else
      var rest := JoinSpace(ts[1..]);
      var r := ts[0] + (" " + rest);
      assert AllWords(ts) ==> AllWords(ts[1..]) && r[0] == ts[0][0] && IsWord(ts[0]);
      assert forall k :: 0 <= k < |ts[0]| ==> r[k] == ts[0][k];
      assert forall k :: |ts[0]| < k < |r| ==> r[k] == rest[k - |ts[0]| - 1];
      r
  }

  /** The number of characters in all of `ts`. */
  function TotalLength(ts: seq<string>): nat
    decreases |ts|
  {
    if |ts| == 0 then 0 else |ts[0]| + TotalLength(ts[1..])
  }

  predicate AllWords(ts: seq<string>) {
    forall k :: 0 <= k < |ts| ==> IsWord(ts[k])
  }

  lemma {:induction false} WordEndOfWord(w: string, x: string, i: nat)
    requires NoSpace(w) && i <= |w|
    requires x == [] || IsSpace(x[0])
    ensures WordEnd(w + x, i) == |w|
    decreases |w| - i
  {
    if i < |w| {
      WordEndOfWord(w, x, i + 1);
    }
  }

  lemma SplitWordThen(w: string, x: string)
    requires IsWord(w)
    requires x == [] || IsSpace(x[0])
    ensures Split(w + x) == [w] + Split(x)
  {
    WordEndOfWord(w, x, 0);
    assert (w + x)[..|w|] == w;
    assert (w + x)[|w|..] == x;
  }

  /** Splitting a space-joined list of words gives the list back. */
  lemma {:induction false} SplitJoin(ts: seq<string>)
    requires AllWords(ts)
    ensures Split(JoinSpace(ts)) == ts
    decreases |ts|
  {
    if |ts| == 0 {
    } else if |ts| == 1 {
      SplitWordThen(ts[0], []);
      assert ts[0] + [] == ts[0];
    } else {
      JoinCons(ts);
      SplitCons(ts[0], JoinSpace(ts[1..]));
      SplitJoin(ts[1..]);
      assert ts == [ts[0]] + ts[1..];
    }
  }

  lemma SplitCons(w: string, rest: string)
    requires IsWord(w)
    ensures Split(w + (" " + rest)) == [w] + Split(rest)
  {
    SplitWordThen(w, " " + rest);
    SplitSpaceThen(" ", rest);
  }

  lemma JoinCons(ts: seq<string>)
    requires |ts| > 1
    ensures JoinSpace(ts) == ts[0] + (" " + JoinSpace(ts[1..]))
  {
  }

  /** Index of the first occurrence of `w` (Python's `list.index`). */
  function IndexOf(ts: seq<string>, w: string): (k: nat)
    requires w in ts
    ensures k < |ts| && ts[k] == w
    ensures forall j :: 0 <= j < k ==> ts[j] != w
  {
    if ts[0] == w then 0 else 1 + IndexOf(ts[1..], w)
  }

  /** Python's `ts[lo:hi]` for `0 <= lo, hi <= len(ts)`: empty when `lo >= hi`. */
  function Slice<T>(ts: seq<T>, lo: nat, hi: nat): (r: seq<T>)
    requires lo <= |ts| && hi <= |ts|
    ensures lo <= hi ==> r == ts[lo..hi]
    ensures hi < lo ==> r == []
  {
    if lo <= hi then ts[lo..hi] else []
  }

  // ---------------------------------------------------------------------------
  // Decimal numerals
  // ---------------------------------------------------------------------------

  function DigitValue(c: char): nat
    requires IsDigit(c)
  {
    c as int - '0' as int
  }

  function DigitChar(d: nat): (c: char)
    requires d < 10
    ensures IsDigit(c) && DigitValue(c) == d
  {
    ('0' as int + d) as char
  }

  /** `int(s)` for a string of ASCII digits (leading zeros allowed). */
  function DecimalValue(s: string): (r: nat)
    requires AllDigits(s)
    ensures r == 0 <==> forall i :: 0 <= i < |s| ==> s[i] == '0'
    decreases |s|
  {
    if |s| == 0 then 0
    else
      assert forall i :: 0 <= i < |s| - 1 ==> s[..|s| - 1][i] == s[i];
      DecimalValue(s[..|s| - 1]) * 10 + DigitValue(s[|s| - 1])
  }

  /** `int("0" + s) == int(s)`: with `DecimalOfNatToString` this fixes the
      value of every digit string, leading zeros included. */
  lemma {:induction false} DecimalLeadingZero(s: string)
    requires AllDigits(s)
    ensures DecimalValue("0" + s) == DecimalValue(s)
    decreases |s|
  {
    if |s| > 0 {
      var z := "0" + s;
      assert z[..|z| - 1] == "0" + s[..|s| - 1];
      assert z[|z| - 1] == s[|s| - 1];
      DecimalLeadingZero(s[..|s| - 1]);
    }
  }

  /** `str(n)` for a natural number: shortest decimal numeral. */
  function NatToString(n: nat): (r: string)
    ensures IsDigitString(r)
    ensures |r| > 1 ==> r[0] != '0'
    decreases n
  {
    if n < 10 then [DigitChar(n)] else NatToString(n / 10) + [DigitChar(n % 10)]
  }

  /** `int(str(n)) == n`. */
  lemma {:induction false} DecimalOfNatToString(n: nat)
    ensures DecimalValue(NatToString(n)) == n
    decreases n
  {
    if n >= 10 {
      var r := NatToString(n);
      assert r[..|r| - 1] == NatToString(n / 10);
      DecimalOfNatToString(n / 10);
    }
  }

  // ---------------------------------------------------------------------------
  // Removing a substring
  // ---------------------------------------------------------------------------

  predicate StartsWith(s: string, i: nat, w: string) {
    i + |w| <= |s| && s[i..i + |w|] == w
  }

  /** `s.replace(pat, "")`: delete the non-overlapping occurrences of `pat`
      found scanning left to right. */
  function RemoveAll(s: string, pat: string): (r: string)
    requires |pat| > 0
    ensures |r| <= |s|
    decreases |s|
  {
    if |s| == 0 then ""
    else if StartsWith(s, 0, pat) then RemoveAll(s[|pat|..], pat)
    else [s[0]] + RemoveAll(s[1..], pat)
  }

  /** Removal never touches a string in which `pat` does not occur. */
  lemma {:induction false} RemoveAllAbsent(s: string, pat: string)
    requires |pat| > 0
    requires forall i :: 0 <= i < |s| ==> !StartsWith(s, i, pat)
    ensures RemoveAll(s, pat) == s
    decreases |s|
  {
    if |s| > 0 {
      assert !StartsWith(s, 0, pat);
      forall i | 0 <= i < |s| - 1
        ensures !StartsWith(s[1..], i, pat)
      {
        assert !StartsWith(s, i + 1, pat);
        if i + |pat| <= |s| - 1 {
          var u, v := s[1..][i..i + |pat|], s[i + 1..i + 1 + |pat|];
          assert forall k :: 0 <= k < |pat| ==> u[k] == v[k];
        }
      }
      RemoveAllAbsent(s[1..], pat);
      assert s == [s[0]] + s[1..];
    }
  }

  /** The scan deletes the first occurrence of `pat` and carries on after
      it; with `RemoveAllAbsent` this fixes the result on every string. */
  lemma {:induction false} RemoveAllFirst(s: string, pat: string, i: nat)
    requires |pat| > 0 && StartsWith(s, i, pat)
    requires forall j :: 0 <= j < i ==> !StartsWith(s, j, pat)
    ensures RemoveAll(s, pat) == s[..i] + RemoveAll(s[i + |pat|..], pat)
    decreases i
  {
    if i > 0 {
      FirstInTail(s, pat, i);
      RemoveAllFirst(s[1..], pat, i - 1);
      PrependHead(s, i, RemoveAll(s[1..], pat), RemoveAll(s[i + |pat|..], pat));
    } else {
      assert s[..0] + RemoveAll(s[|pat|..], pat) == RemoveAll(s[|pat|..], pat);
    }
  }

  /** The first occurrence at `i > 0` is, in the tail, the first one at `i - 1`. */
  lemma FirstInTail(s: string, pat: string, i: nat)
    requires 0 < i && StartsWith(s, i, pat)
    requires forall j :: 0 <= j < i ==> !StartsWith(s, j, pat)
    ensures !StartsWith(s, 0, pat) && RemoveAll(s, pat) == [s[0]] + RemoveAll(s[1..], pat)
    ensures StartsWith(s[1..], i - 1, pat)
    ensures RemoveAll(s[1..][i - 1 + |pat|..], pat) == RemoveAll(s[i + |pat|..], pat)
    ensures forall j :: 0 <= j < i - 1 ==> !StartsWith(s[1..], j, pat)
  {
    StartsWithTail(s, i, pat);
    forall j | 0 <= j < i - 1
      ensures !StartsWith(s[1..], j, pat)
    {
      StartsWithTail(s, j + 1, pat);
    }
  }

  lemma PrependHead(s: string, i: nat, y: string, rest: string)
    requires 0 < i <= |s| && y == s[1..][..i - 1] + rest
    ensures [s[0]] + y == s[..i] + rest
  {
    assert [s[0]] + s[1..][..i - 1] == s[..i];
  }

  /** An occurrence past the first character is one of the tail. */
  lemma StartsWithTail(s: string, i: nat, pat: string)
    requires 0 < i && 0 < |s|
    ensures StartsWith(s, i, pat) <==> StartsWith(s[1..], i - 1, pat)
  {
    if i + |pat| <= |s| {
      var u, v := s[1..][i - 1..i - 1 + |pat|], s[i..i + |pat|];
      assert forall k :: 0 <= k < |pat| ==> u[k] == v[k];
      assert u == v;
    }
  }

  /** A trailing occurrence of `pat` after characters that cannot start it is removed. */
  lemma {:induction false} RemoveAllTrailing(s: string, pat: string)
    requires |pat| > 0
    requires forall i :: 0 <= i < |s| ==> s[i] != pat[0]
    ensures RemoveAll(s + pat, pat) == s
    decreases |s|
  {
    if |s| == 0 {
      assert s + pat == pat;
      assert pat[|pat|..] == [];
    } else {
      assert (s + pat)[1..] == s[1..] + pat;
      RemoveAllTrailing(s[1..], pat);
      assert s == [s[0]] + s[1..];
    }
  }
  /** Removal only deletes: every character it returns occurs in `s`. */
  lemma {:induction false} RemoveAllFrom(s: string, pat: string)
    requires |pat| > 0
    ensures forall k :: 0 <= k < |RemoveAll(s, pat)| ==> RemoveAll(s, pat)[k] in s
    decreases |s|
  {
    if |s| > 0 {
      if StartsWith(s, 0, pat) {
        RemoveAllFrom(s[|pat|..], pat);
        assert forall c :: c in s[|pat|..] ==> c in s;
      } else {
        RemoveAllFrom(s[1..], pat);
        assert forall c :: c in s[1..] ==> c in s;
      }
    }
  }

  /** A character that occurs nowhere in `pat` survives removal. */
  lemma {:induction false} RemoveAllKeeps(s: string, pat: string, i: nat)
    requires |pat| > 0 && i < |s| && s[i] !in pat
    ensures s[i] in RemoveAll(s, pat)
    decreases |s|
  {
    if StartsWith(s, 0, pat) {
      assert forall k :: 0 <= k < |pat| ==> s[k] == pat[k];
      assert s[|pat|..][i - |pat|] == s[i];
      RemoveAllKeeps(s[|pat|..], pat, i - |pat|);
    } else if i > 0 {
      assert s[1..][i - 1] == s[i];
      RemoveAllKeeps(s[1..], pat, i - 1);
    }
  }
}

=== FILE: token_command.dfy ===
/**
 * The hand-written fallback parser that the command loop of
 * pk_graph_tool_ai.py runs when the language service gives nothing usable:
 * lower-case the input, split it on whitespace, and read the drug between the
 * first `me` and the first `at` and the dose from the token after `at`.
 */
module TokenCommand {
  import opened Wrappers
  import opened Text

  /** The record the loop builds: `{"drug": ..., "dosage": ..., "unit": "mg"}`. */
  datatype Command = Command(drug: string, dosage: nat, unit: string)

  datatype TokenError =
    | MissingKeyword    // the ValueError raised when `show`, `me` or `at` is absent
    | MissingDoseToken  // the IndexError of `parts[dose_end + 1]`

  /** A character the cleaning keeps that cannot belong to a number. */
  predicate Stray(c: char) {
    !IsDigit(c) && !IsSpace(c) && c != 'm' && c != 'g'
  }

  /** A character that survives cleaning and is no digit. */
  predicate Unreadable(c: char) {
    !IsDigit(c) && !IsSpace(c)
  }

  /** `mg` occurs nowhere in `token`, so cleaning removes nothing. */
  predicate NoUnit(token: string) {
    forall i :: 0 <= i < |token| ==> !StartsWith(token, i, "mg")
  }

  /** The dose read from one token: `int(t) if t.isdigit() else 0` where
      `t = token.replace("mg", "").strip()`. */
  function TokenDose(token: string): (r: nat)
    ensures IsDigitString(token) ==> r == DecimalValue(token)
    ensures (forall k :: 0 <= k < |token| ==> !IsDigit(token[k])) ==> r == 0
    ensures (exists k :: 0 <= k < |token| && Stray(token[k])) ==> r == 0
    ensures NoUnit(token) && (exists k :: 0 <= k < |token| && Unreadable(token[k])) ==> r == 0
  {
    DigitTokenUnchanged(token);
    UnreadableToken(token);
    NoUnitUnreadable(token);
    var t := Strip(RemoveAll(token, "mg"));
    if IsDigitString(t) then DecimalValue(t) else 0
  }

  /** Cleaning leaves a pure digit token as it is. */
  lemma DigitTokenUnchanged(token: string)
    ensures IsDigitString(token) ==> Strip(RemoveAll(token, "mg")) == token
  {
    if IsDigitString(token) {
      DigitsHoldNoUnit(token);
      RemoveAllAbsent(token, "mg");
      assert [] + token + [] == token;
      StripCanonical([], token, []);
    }
  }

  /** `mg` occurs nowhere in a string of digits. */
  lemma DigitsHoldNoUnit(d: string)
    requires AllDigits(d)
    ensures forall i :: 0 <= i < |d| ==> !StartsWith(d, i, "mg")
  {
    forall i | 0 <= i < |d|
      ensures !StartsWith(d, i, "mg")
    {
      if i + 2 <= |d| {
        assert d[i..i + 2][0] == d[i];
      }
    }
  }

  /** A token without digits, or with a stray character, does not clean to
      a digit string. */
  lemma UnreadableToken(token: string)
    ensures (forall k :: 0 <= k < |token| ==> !IsDigit(token[k])) || (exists k :: 0 <= k < |token| && Stray(token[k]))
      ==> !IsDigitString(Strip(RemoveAll(token, "mg")))
  {
    if exists k :: 0 <= k < |token| && Stray(token[k]) {
      var k :| 0 <= k < |token| && Stray(token[k]);
      StrayKept(token, k);
    } else if forall k :: 0 <= k < |token| ==> !IsDigit(token[k]) {
      var x := RemoveAll(token, "mg");
      RemoveAllFrom(token, "mg");
      StripFrom(x);
    }
  }

  /** Without a whole `mg`, a lone `m` or `g` (as in `500g`) survives the
      cleaning, so the token is unreadable. */
  lemma NoUnitUnreadable(token: string)
    ensures NoUnit(token) && (exists k :: 0 <= k < |token| && Unreadable(token[k]))
      ==> !IsDigitString(Strip(RemoveAll(token, "mg")))
  {
    if NoUnit(token) && exists k :: 0 <= k < |token| && Unreadable(token[k]) {
      var k :| 0 <= k < |token| && Unreadable(token[k]);
      RemoveAllAbsent(token, "mg");
      StripKeeps(token);
      assert token[k] in Strip(token);
    }
  }

  lemma StrayKept(token: string, k: nat)
    requires k < |token| && Stray(token[k])
    ensures token[k] in Strip(RemoveAll(token, "mg"))
  {
    var x := RemoveAll(token, "mg");
    RemoveAllKeeps(token, "mg", k);
    var j :| 0 <= j < |x| && x[j] == token[k];
    StripKeeps(x);
  }

  /** The drug words between `me` and `at` survive joining and re-splitting. */
  lemma BetweenWords(parts: seq<string>, m: nat, a: nat)
    requires AllWords(parts) && m < |parts| && a < |parts|
    ensures Split(JoinSpace(Slice(parts, m + 1, a))) == Slice(parts, m + 1, a)
  {
    var between := Slice(parts, m + 1, a);
    assert AllWords(between);
    SplitJoin(between);
  }

  /** `{"drug": " ".join(parts[m + 1:a]), "dosage": ..., "unit": "mg"}` */
  function Assemble(parts: seq<string>, m: nat, a: nat): (r: Command)
    requires AllWords(parts) && m < |parts| && a + 1 < |parts|
    ensures Split(r.drug) == Slice(parts, m + 1, a)
    ensures r.dosage == TokenDose(parts[a + 1]) && r.unit == "mg"
    ensures Canonical(r.drug)
    ensures (forall k :: 0 <= k < |parts| ==> NoUpper(parts[k])) ==> NoUpper(r.drug)
  {
    var between := Slice(parts, m + 1, a);
    BetweenWords(parts, m, a);
    assert AllWords(between);
    assert (forall k :: 0 <= k < |parts| ==> NoUpper(parts[k])) ==> NoUpper(JoinSpace(between)) by {
      if forall k :: 0 <= k < |parts| ==> NoUpper(parts[k]) {
        NoUpperJoin(between);
      }
    }
    Command(JoinSpace(between), TokenDose(parts[a + 1]), "mg")
  }

  /** `"show" in parts and "me" in parts and "at" in parts` */
  predicate HasKeywords(parts: seq<string>) {
    "show" in parts && "me" in parts && "at" in parts
  }

  /** The inline parser of the command loop, on the token list
      `user_input.lower().split()`. */
  function ParseParts(parts: seq<string>): (r: Result<Command, TokenError>)
    requires AllWords(parts)
    ensures r == Err(MissingKeyword) <==> !HasKeywords(parts)
    ensures r == Err(MissingDoseToken) <==> HasKeywords(parts) && IndexOf(parts, "at") + 1 == |parts|
    ensures r.Ok? ==> HasKeywords(parts)
    ensures r.Ok? ==>
      var m, a := IndexOf(parts, "me"), IndexOf(parts, "at");
      && a + 1 < |parts|
      && Split(r.value.drug) == Slice(parts, m + 1, a)
      && r.value.dosage == TokenDose(parts[a + 1])
      && r.value.unit == "mg"
    ensures r.Ok? ==> Canonical(r.value.drug)
    ensures r.Ok? && (forall k :: 0 <= k < |parts| ==> NoUpper(parts[k])) ==> NoUpper(r.value.drug)
  {
    if HasKeywords(parts) then Located(parts) else Err(MissingKeyword)
  }

  /** The parser once the keywords are known to occur: `parts[dose_end + 1]`
      fails exactly when the first `at` is the last token. */
  function Located(parts: seq<string>): (r: Result<Command, TokenError>)
    requires AllWords(parts) && HasKeywords(parts)
    ensures r.Err? <==> IndexOf(parts, "at") + 1 == |parts|
    ensures r.Err? ==> r.error == MissingDoseToken
    ensures r.Ok? ==> r.value == Assemble(parts, IndexOf(parts, "me"), IndexOf(parts, "at"))
  {
    var m := IndexOf(parts, "me");
    var a := IndexOf(parts, "at");
    if a + 1 < |parts| then Ok(Assemble(parts, m, a)) else Err(MissingDoseToken)
  }

  /** The fallback parser applied to a raw input line. The drug it reads is
      lower-case, trimmed, and its unit is always `mg`. */
  function ParseTokens(input: string): (r: Result<Command, TokenError>)
    ensures r.Ok? ==> r.value.unit == "mg" && NoUpper(r.value.drug) && Canonical(r.value.drug)
  {
    ParseParts(Split(Lower(input)))
  }

  // ---------------------------------------------------------------------------
  // Properties
  // ---------------------------------------------------------------------------

  /** The input is lower-cased before splitting, so case never matters. */
  lemma ParseTokensIgnoresCase(input: string)
    ensures ParseTokens(input) == ParseTokens(Lower(input))
  {
    LowerIdempotent(input);
  }

  /** A dose token with or without a glued-on `mg` unit reads back as its value. */
  lemma TokenDoseRoundTrip(n: nat)
    ensures TokenDose(NatToString(n)) == n
    ensures TokenDose(NatToString(n) + "mg") == n
  {
    DecimalOfNatToString(n);
    TokenDoseWithUnit(NatToString(n));
  }

  lemma TokenDoseWithUnit(d: string)
    requires IsDigitString(d)
    ensures TokenDose(d + "mg") == DecimalValue(d)
  {
    RemoveAllTrailing(d, "mg");
    assert [] + d + [] == d;
    StripCanonical([], d, []);
  }

  /** A unit written anywhere among the digits is dropped: `mg500`, `5mg00`
      and `500mg` read as the digits around it. */
  lemma TokenDoseUnitInside(d1: string, d2: string)
    requires AllDigits(d1) && AllDigits(d2) && |d1| + |d2| > 0
    ensures TokenDose(d1 + "mg" + d2) == DecimalValue(d1 + d2)
  {
    var d := d1 + d2;
    UnitAmongDigits(d1, d2);
    assert forall k :: 0 <= k < |d| ==> d[k] == if k < |d1| then d1[k] else d2[k - |d1|];
    assert IsDigitString(d);
    assert [] + d + [] == d;
    StripCanonical([], d, []);
  }

  /** Removing the unit from `d1 + "mg" + d2` leaves the digits around it. */
  lemma UnitAmongDigits(d1: string, d2: string)
    requires AllDigits(d1) && AllDigits(d2)
    ensures RemoveAll(d1 + "mg" + d2, "mg") == d1 + d2
  {
    var token := d1 + "mg" + d2;
    assert StartsWith(token, |d1|, "mg") by {
      assert token[|d1|..|d1| + 2] == "mg";
    }
    DigitsBeforeUnit(d1, token);
    RemoveAllFirst(token, "mg", |d1|);
    assert token[..|d1|] == d1 && token[|d1| + 2..] == d2;
    DigitsHoldNoUnit(d2);
    RemoveAllAbsent(d2, "mg");
  }

  /** No `mg` starts inside a digit prefix. */
  lemma DigitsBeforeUnit(d: string, token: string)
    requires AllDigits(d) && d <= token
    ensures forall j :: 0 <= j < |d| ==> !StartsWith(token, j, "mg")
  {
    forall j | 0 <= j < |d|
      ensures !StartsWith(token, j, "mg")
    {
      assert token[j] == d[j];
      if j + 2 <= |token| {
        assert token[j..j + 2][0] == token[j];
      }
    }
  }

  lemma NoUpperJoin(ts: seq<string>)
    requires forall k :: 0 <= k < |ts| ==> NoUpper(ts[k])
    ensures NoUpper(JoinSpace(ts))
    decreases |ts|
  {
    if |ts| > 1 {
      NoUpperJoin(ts[1..]);
      NoUpperConcat(" ", JoinSpace(ts[1..]));
      NoUpperConcat(ts[0], " " + JoinSpace(ts[1..]));
    }
  }

  /** Drug words the parser can give back: lower-case tokens other than
      the marker `at` (a later `me` is harmless, as the first one is used). */
  predicate PlainWords(words: seq<string>) {
    forall k :: 0 <= k < |words| ==> IsWord(words[k]) && NoUpper(words[k]) && words[k] != "at"
  }

  /** The token list of `show me <words> at <dose>mg`. */
  function CommandTokens(words: seq<string>, n: nat): seq<string> {
    ["show", "me"] + words + ["at", NatToString(n) + "mg"]
  }

  lemma CommandTokensShape(words: seq<string>, n: nat)
    requires PlainWords(words)
    ensures var ts := CommandTokens(words, n);
      && AllWords(ts)
      && (forall k :: 0 <= k < |ts| ==> NoUpper(ts[k]))
      && IndexOf(ts, "me") == 1
      && IndexOf(ts, "at") == 2 + |words|
      && ts[2..2 + |words|] == words
      && ts[3 + |words|] == NatToString(n) + "mg"
  {
    var ts := CommandTokens(words, n);
    var d := NatToString(n) + "mg";
    assert ts[|ts| - 1] == d;
    assert IsWord(d);
    assert NoUpper(d) by {
      assert forall k :: 0 <= k < |NatToString(n)| ==> d[k] == NatToString(n)[k];
    }
    assert forall k :: 2 <= k < 2 + |words| ==> ts[k] == words[k - 2];
    assert ts[2 + |words|] == "at" && forall j :: 0 <= j < 2 + |words| ==> ts[j] != "at";
  }

  /** Writing a command out as tokens and parsing it gives back the drug
      words joined by single spaces, the dose, and the unit `mg`. */
  lemma ParseTokensRoundTrip(words: seq<string>, n: nat)
    requires PlainWords(words)
    ensures ParseTokens(JoinSpace(CommandTokens(words, n))) == Ok(Command(JoinSpace(words), n, "mg"))
  {
    var ts := CommandTokens(words, n);
    var line := JoinSpace(ts);
    CommandTokensShape(words, n);
    NoUpperJoin(ts);
    LowerOfNoUpper(line);
    SplitJoin(ts);
    assert ParseTokens(line) == ParseParts(ts);
    assert ParseParts(ts) == Ok(Assemble(ts, 1, 2 + |words|));
    TokenDoseRoundTrip(n);
  }

  lemma NoDoseTokensShape(words: seq<string>)
    requires PlainWords(words)
    ensures var ts := ["show", "me"] + words + ["at"];
      && AllWords(ts)
      && (forall k :: 0 <= k < |ts| ==> NoUpper(ts[k]))
      && HasKeywords(ts)
      && IndexOf(ts, "at") + 1 == |ts|
  {
    var ts := ["show", "me"] + words + ["at"];
    assert forall k :: 2 <= k < 2 + |words| ==> ts[k] == words[k - 2];
    assert ts[0] == "show" && ts[1] == "me" && ts[|ts| - 1] == "at";
  }

  /** Without a token after `at` the loop's index expression fails. */
  lemma ParseTokensNoDose(words: seq<string>)
    requires PlainWords(words)
    ensures ParseTokens(JoinSpace(["show", "me"] + words + ["at"])) == Err(MissingDoseToken)
  {
    var ts := ["show", "me"] + words + ["at"];
    NoDoseTokensShape(words);
    NoUpperJoin(ts);
    LowerOfNoUpper(JoinSpace(ts));
    SplitJoin(ts);
  }
}

=== FILE: wrappers.dfy ===
/** Failure-carrying values used in place of Python's `None` returns and raised exceptions. */
module Wrappers {

  /** A value that may be absent (Python's `None`). */
  datatype Option<+T> = None | Some(value: T)

  /** Either a value or the exception the Python code raises. */
  datatype Result<+R, +E> = Ok(value: R) | Err(error: E)
}
